=== FILE: README.md ===
# Color variant components — a Dafny model

This project models the logic of a design-tool plugin that turns colour
variables into swatch components. It covers five parts of the plugin:

- **Hex colour codec** (`color_utils.dfy`, module `ColorUtils`): `rgbToHex` scales
  each component by 255, rounds half-up, writes two lower-case hex digits per
  byte and prefixes `#`. `hexToRgb` accepts an optional `#` and six hex digits
  in either case, and divides each byte by 255.
- **Variable reading** (`variable_service.dfy`, module `VariableService`): the
  alias resolver, which gives up once the depth passes 10, and the three
  enumerations built on it. `getColorVariablesInCollection` lists the colour
  variables of one collection, `getColorVariables` those of the selected
  collections, and `getCollections` gives each collection's count of colours.
- **Swatch creation** (`component_service.dfy`, module `ComponentService`):
  naming with an optional prefix, the five-column grid with a 140-unit pitch,
  the bounding box, centring the group on the viewport, and the outcome when
  some creations fail.
- **Selection scan** (`scan.dfy`, module `SelectionScan`): a pre-order walk
  over the selected nodes. It collects visible solid fills, keeps one entry
  per hex spelling, and names unnamed nodes `Color k`.
- **Panel state** (`panel.dfy`, module `Panel`): the collection-selection
  toggle, the guards on the load and create requests, the rescan reset, and
  the view flags set by the two message listeners.

`common.dfy` (module `Common`) holds the optional value and the number
spellings (`toString(16)` and base ten). `types.dfy` (module `Types`) holds
the shared records.

Host capabilities are not modelled. In their place the model takes:

- a map from variable id to variable, for the variable store;
- a sequence of collections, in the host's order;
- a success flag per item, for whether the host built the component;
- the viewport centre, as two numbers.

Colour components are exact reals.

Each operation has a partner it is proved against:

- The codec is proved against its inverse: both round trips.
- The resolver is proved against a hop-by-hop reference chain. The proof
  covers agreement in both directions, the 10/11-hop bound, and failure on
  cycles.
- The per-collection enumeration is proved against membership and counting
  characterisations. Loading the selected collections is proved equal to one
  enumeration of their ids, concatenated in host order. The collection list is
  proved to follow host order, one summary per collection that holds a
  resolvable colour, with the exact count of such colours.
- The tree walk is proved equal to a fold over the pre-order list of fills. That
  fold is proved equal to a first-occurrence filter that does not use the
  seen-set.
- The toggle is proved against removal of the toggled id. The panel's reducer
  is proved to keep the selection free of duplicates over any sequence of
  events.

Where the panel's tests and its code differ, the model follows the code. The
panel sends `create-components` with the colour list only, with no prefix
(src/ui.tsx:77-81). The panel's tests expect a prefix input and a
`{colorVariables, prefix}` payload.

## Model

| member | source | states |
|---|---|---|
| Common.HexDigitsSpelling | src/utils/color-utils.ts:5 | `toString(16)` of a non-negative integer is a non-empty string of lower-case hex digits whose value is the integer, with no leading zero unless the integer is 0; it has one digit exactly below 16 and at most two below 256 |
| Common.HexDigits | src/utils/color-utils.ts:5 | `toString(16)` of a non-negative integer is never empty; `HexDigitsSpelling` gives its digits and value |
| Common.DecimalDigitsSpelling | src/services/component-service.ts:25 | the base-ten spelling used in the templates is a non-empty digit string whose value is the number, with no leading zero unless the number is 0 |
| Common.DecimalDigits | src/code.ts:43 | the base-ten spelling is never empty; `DecimalDigitsSpelling` gives its digits and value |
| Common.DecimalDigitsInjective | src/code.ts:43 | distinct numbers are spelled differently, so generated `Color k` names never coincide |
| ColorUtils.Round | src/utils/color-utils.ts:5 | `Math.round` rounds half-up: the result `n` satisfies `n - 0.5 <= x < n + 0.5` |
| ColorUtils.IntToHexSpelling | src/utils/color-utils.ts:5 | for a non-negative integer the text is lower-case hex digits spelling that integer; a negative integer gets a leading `-` followed by the spelling of its magnitude |
| ColorUtils.IntToHex | src/utils/color-utils.ts:5 | the text is never empty and starts with `-` for a negative integer |
| ColorUtils.PaddedHex | src/utils/color-utils.ts:5-6 | a byte is written as exactly two lower-case hex digits whose value is the byte, so bytes below 16 are zero-padded |
| ColorUtils.ComponentHex | src/utils/color-utils.ts:4-7 | for a component in [0,1], `toHex` gives exactly two lower-case hex digits whose value is the rounded byte, so bytes below 16 are zero-padded |
| ColorUtils.RgbToHex | src/utils/color-utils.ts:3-10 | for components in [0,1] the result has length 7 |
| ColorUtils.RgbToHexFormat | src/utils/color-utils.ts:3-10 | for components in [0,1] the result is `#` and six lower-case hex digits, each pair the half-up rounded byte of its component |
| ColorUtils.RgbToHexExamples | src/utils/__tests__/color-utils.test.ts:7-20 | (1,0,0), (0.5,0.5,0.5), (0.25,0.5,0.75) and (0.01,0.01,0.01) give `#ff0000`, `#808080`, `#4080bf` and `#030303` |
| ColorUtils.PairComponent | src/utils/color-utils.ts:15-17 | a decoded component is a byte over 255, hence in [0,1] |
| ColorUtils.HexToRgb | src/utils/color-utils.ts:12-19 | every decoded colour has components of the form byte/255 in [0,1] |
| ColorUtils.MatchesHexPattern | src/utils/color-utils.ts:13 | text the pattern matches is six hex digits once an optional leading `#` is removed |
| ColorUtils.HexToRgbAcceptsPattern | src/utils/color-utils.ts:13 | decoding succeeds exactly when the text is an optional `#` followed by six hex digits of either case |
| ColorUtils.HexToRgbRejects | src/utils/__tests__/color-utils.test.ts:37-42 | the empty string, `#gg0000`, `#ff00` and `xyz` are rejected |
| ColorUtils.HexToRgbAccepts | src/utils/__tests__/color-utils.test.ts:26-34 | `#ff0000` and `ff0000` decode to pure red |
| ColorUtils.HexToRgbAcceptsUpperCase | src/utils/__tests__/color-utils.test.ts:44-45 | `#FF0000` decodes to pure red too |
| ColorUtils.HexToRgbMixedCase | src/utils/__tests__/color-utils.test.ts:44-47 | `#aAbBcC` decodes to 170/255, 187/255, 204/255 |
| ColorUtils.ComponentRoundTrip | src/utils/color-utils.ts:4-7 | a single byte fraction is recovered exactly by `toHex` followed by `parseInt(_, 16) / 255` |
| ColorUtils.ByteColorRoundTrip | src/utils/color-utils.ts:3-19 | a colour whose components are bytes over 255 is recovered exactly by encoding then decoding |
| ColorUtils.RoundTripWithinHalfStep | src/utils/color-utils.ts:3-19 | for any colour in [0,1], encoding then decoding moves each component by at most 1/510 |
| ColorUtils.HexRoundTrip | src/utils/color-utils.ts:3-19 | for accepted text, decoding then encoding gives `#` and the same six digits lower-cased |
| VariableService.Hop | src/services/variable-service.ts:70-75 | only an alias whose target names a COLOR variable leads anywhere |
| VariableService.ResolveColorValue | src/services/variable-service.ts:59-80 | resolution terminates and succeeds only at depths up to 10 |
| VariableService.ResolveDirect | src/services/variable-service.ts:65-68 | a direct colour resolves to itself at any depth up to 10 |
| VariableService.ResolveAlias | src/services/variable-service.ts:70-75 | an alias to an existing COLOR variable resolves as that variable's first-mode value one level deeper |
| VariableService.ResolveFailures | src/services/variable-service.ts:70-79 | a non-colour value, an empty alias id, a missing target or a non-COLOR target yields no colour |
| VariableService.FollowAdd | src/services/variable-service.ts:70-75 | alias hops compose: `a + b` hops are `a` hops followed by `b` |
| VariableService.ResolveIsBoundedChain | src/services/variable-service.ts:59-80 | the resolver yields `c` exactly when some hop chain from the value ends in the direct colour `c` within the depth bound |
| VariableService.ChainEndIsUnique | src/services/variable-service.ts:70-75 | a hop chain reaches a direct colour at only one length and with only one colour |
| VariableService.ChainLengthBound | src/services/variable-service.ts:59-63 | from depth 0 a chain of at most 10 hops resolves and a chain of 11 or more does not |
| VariableService.CycleNeverResolves | src/services/variable-service.ts:59-63 | a value that returns to itself after one or more hops never resolves |
| VariableService.SelfAliasNeverResolves | src/services/__tests__/variable-service.test.ts:133-155 | a COLOR variable whose first mode aliases itself yields nothing |
| VariableService.FirstModeValue | src/services/variable-service.ts:42-43 | the value read is that of the first listed mode; a variable with no modes gives a non-colour value |
| VariableService.IsColorVariable | src/services/variable-service.ts:41 | the variable exists in the store and its resolved type is COLOR; the alias target test at line 72 uses the same predicate |
| VariableService.ColorVariableFor | src/services/variable-service.ts:39-53 | a record exists exactly for a COLOR variable whose first-mode value resolves from depth 0; it carries the variable's id and name, the colour that value resolves to, and that colour's hex |
| VariableService.RecordsSpellTheirColour | src/services/variable-service.ts:44-51 | every record of a collection carries the hex spelling of its own colour |
| VariableService.ColorVariablesInCollection | src/services/variable-service.ts:36-57 | at most one record per listed id; `ColorVariablesAppend`, `ColorVariablesMembership` and `ColorCountIsResolvable` characterise the list |
| VariableService.ColorVariablesAppend | src/services/variable-service.ts:39-54 | records follow the order of the id list: the result for `a + b` is the result for `a`, then for `b` |
| VariableService.ColorVariablesMembership | src/services/variable-service.ts:39-54 | a record is emitted exactly when some listed id produces it |
| VariableService.ColorCountIsResolvable | src/services/variable-service.ts:10-14 | the count is the number of listed ids naming a COLOR variable whose first-mode value resolves |
| VariableService.SelectedRecordsSpellTheirColour | src/services/variable-service.ts:22-34 | every record `getColorVariables` returns carries the hex spelling of its own colour |
| VariableService.ColorVariablesIgnoreSelectionOrder | src/services/variable-service.ts:24 | only membership of the selection matters, not its order or repetitions |
| VariableService.ColorVariablesFollowHostOrder | src/services/variable-service.ts:28-31 | results follow the host's collection order: the result for `a + b` is the result for `a`, then for `b` |
| VariableService.ColorVariablesFromSelected | src/services/variable-service.ts:22-34 | a record is returned exactly when it comes from a selected collection |
| VariableService.ColorVariables | src/services/variable-service.ts:22-34 | an empty selection loads nothing; the full characterisation is `ColorVariablesOfSelectedIds` |
| VariableService.ColorVariablesOfSelectedIds | src/services/variable-service.ts:22-34 | the loaded records are exactly one enumeration of the selected collections' ids, each selected collection's ids once, in host order |
| VariableService.ColorVariablesCount | src/services/variable-service.ts:22-34 | the number of loaded records is the number of resolvable COLOR variables among the selected collections' ids |
| VariableService.ColorVariablesNoneSelected | src/services/variable-service.ts:24-31 | when no listed collection is selected, nothing is loaded |
| VariableService.Summary | src/services/variable-service.ts:9-16 | a summary keeps the collection's id and name and counts at most as many colours as the collection lists ids; the exact count is `SummaryCountIsResolvable` |
| VariableService.Collections | src/services/variable-service.ts:5-20 | no longer than the collection list, and every listed count is positive; order and multiplicity are `CollectionsAppend` and `CollectionsOfOne` |
| VariableService.SummaryCountIsResolvable | src/services/variable-service.ts:9-16 | a summary's count is exactly the number of the collection's ids naming a COLOR variable whose first-mode value resolves |
| VariableService.CollectionsAppend | src/services/variable-service.ts:5-20 | the list for `a + b` is the list for `a` followed by the list for `b`: host order is kept and nothing is repeated or dropped |
| VariableService.CollectionsOfOne | src/services/variable-service.ts:9-19 | one collection is listed once, as its summary, when it holds a resolvable COLOR variable, and is absent otherwise |
| VariableService.CollectionsKeepsNonEmpty | src/services/variable-service.ts:5-20 | a summary is listed exactly when it belongs to a collection listing at least one COLOR variable whose first-mode value resolves |
| VariableService.CollectionsExample | src/services/__tests__/variable-service.test.ts:13-38 | a collection with two colour variables and one number variable is listed with count 2, and an empty collection is dropped |
| ComponentService.Prefixed | src/services/component-service.ts:64 | the name ends with the given text and is as long as the prefix text plus the text |
| ComponentService.PrefixedIsConcat | src/services/component-service.ts:64 | the truthiness test on the prefix changes nothing: the name is always the prefix text followed by the text |
| ComponentService.ComponentName | src/services/component-service.ts:64 | a component is named by its prefix text followed by the variable name |
| ComponentService.GroupName | src/services/component-service.ts:77 | the group is named by its prefix text followed by `Color Variant Components` |
| ComponentService.NoPrefixNames | src/services/component-service.ts:64-77 | with no prefix or an empty one, the names are the bare variable name and the bare group title |
| ComponentService.CreatedNotice | src/services/component-service.ts:25 | the notice is `Created `, then base-ten digits whose value is the count with no leading zero, then ` color variant components` |
| ComponentService.CreatedNoticeInjective | src/services/component-service.ts:25 | different counts give different notices |
| ComponentService.CreatedNoticeIsNotEmptyNotice | src/services/component-service.ts:10-25 | a creation notice never equals the empty-input notice |
| ComponentService.SwatchX | src/services/component-service.ts:82-84 | a left edge lies between 0 and four pitches |
| ComponentService.SwatchY | src/services/component-service.ts:81-85 | a top edge is non-negative |
| ComponentService.TotalRows | src/services/component-service.ts:90 | the row count is the ceiling of n/5: enough rows for n, and one fewer would not be |
| ComponentService.TotalWidth | src/services/component-service.ts:89 | a non-empty grid is at least one swatch wide and at most five cells wide, without trailing padding |
| ComponentService.TotalHeight | src/services/component-service.ts:90-91 | a non-empty grid is at least one swatch high and spans whole cells less the trailing padding |
| ComponentService.GridIndexRecovered | src/services/component-service.ts:80-86 | positions are multiples of the pitch, and the index is recovered from the position in row-major order |
| ComponentService.SwatchesDoNotOverlap | src/services/component-service.ts:80-86 | distinct indices get distinct positions, at least the padding apart on one axis |
| ComponentService.SwatchesInsideBox | src/services/component-service.ts:84-91 | every swatch of an n-swatch grid lies inside the computed width and height |
| ComponentService.BoxIsTight | src/services/component-service.ts:89-91 | some swatch touches the right edge and the last one touches the bottom edge |
| ComponentService.GridExample | src/services/__tests__/component-service.test.ts:76-94 | the seventh swatch sits at (140, 140); seven swatches fill 680 x 260 and one fills 120 x 120 |
| ComponentService.GroupFor | src/services/component-service.ts:89-94 | the group's box is exactly the grid's total width and height, centred on the viewport centre, and carries the group name |
| ComponentService.Successes | src/services/component-service.ts:14-21 | no more components than attempts; `SuccessCount`, `SuccessesKeepOrder` and `SuccessesMembership` characterise the list |
| ComponentService.SuccessCount | src/services/component-service.ts:16-21 | one component per successful attempt |
| ComponentService.SuccessesKeepOrder | src/services/component-service.ts:16-21 | created components keep input order |
| ComponentService.SuccessesMembership | src/services/component-service.ts:16-21 | a variable gets a component exactly when one of its attempts succeeded |
| ComponentService.Place | src/services/component-service.ts:29-68 | a component carries its variable's id, colour and name, and the prefixed name |
| ComponentService.CreateColorComponents | src/services/component-service.ts:8-27 | empty input gives only the `No color variables selected` notice; otherwise one swatch per success, in order, carrying its variable's id, name and colour, the prefixed component name and its grid cell; a group exactly when something was created, named with the prefix and centred on the viewport as `GroupFor` states; the `Created N` notice for N > 0, and no notice when everything failed |
| ComponentService.CreatedNoticeCountsSuccesses | src/services/component-service.ts:23-26 | the notice names the number of successes and appears exactly when that number is positive |
| ComponentService.CreatedInsideGroup | src/services/component-service.ts:75-94 | every created swatch lies inside the group's box |
| ComponentService.CreatedGroupIsTight | src/services/component-service.ts:80-94 | the created group is the tight box of its swatches: some swatch touches its right edge and the last one touches its bottom edge |
| ComponentService.CreateTwoExample | src/services/__tests__/component-service.test.ts:49-67 | two successes give `Created 2 color variant components` |
| ComponentService.CreateEmptyExample | src/services/__tests__/component-service.test.ts:69-74 | empty input creates nothing and gives only `No color variables selected` |
| ComponentService.CreateFailedExample | src/services/__tests__/component-service.test.ts:110-131 | a single failed creation creates nothing and sends no notice |
| SelectionScan.FallbackName | src/code.ts:43 | a generated name starts with `Color ` and has something after it; `FallbackNameSpelling` shows the rest is the number in base ten without a leading zero |
| SelectionScan.FallbackNameSpelling | src/code.ts:43 | a generated name is `Color ` followed by base-ten digits whose value is the number, with no leading zero |
| SelectionScan.Contributes | src/code.ts:38 | a fill that is not SOLID or is explicitly hidden never counts, and a SOLID fill with no visibility flag counts |
| SelectionScan.Entry | src/code.ts:42-46 | an entry carries its fill's colour and hex, and the node's name when it has one, otherwise the generated name `Color k` |
| SelectionScan.Step | src/code.ts:38-47 | one fill appends at most one entry and never removes anything |
| SelectionScan.ScanColorVariants | src/code.ts:59-67 | an empty selection gives no colours and the `Please select objects to scan for color variants` notice; a non-empty one gives no notice |
| SelectionScan.Run | src/code.ts:37-49 | processing fills only appends, at most one entry per fill |
| SelectionScan.ProcessFills | src/code.ts:36-50 | the fills loop only appends to the list and only adds to the seen-set |
| SelectionScan.ProcessNode | src/code.ts:35-57 | processing a node and its subtree only appends to the list and only adds to the seen-set |
| SelectionScan.ProcessNodes | src/code.ts:52-61 | processing a list of nodes only appends to the list and only adds to the seen-set |
| SelectionScan.RunAppend | src/code.ts:35-61 | processing `a + b` is processing `a`, then `b` |
| SelectionScan.ProcessFillsIsRun | src/code.ts:37-49 | the fills loop is the fold over the node's fills in order |
| SelectionScan.ProcessNodeIsRun | src/code.ts:35-57 | a node is processed as its own fills, then its children's, in pre-order |
| SelectionScan.ProcessNodesIsRun | src/code.ts:52-61 | a list of nodes is processed in order |
| SelectionScan.FirstIffUnseen | src/code.ts:38-41 | a fill is a first occurrence exactly when it is visible and solid and its hex is not yet in the seen-set |
| SelectionScan.RunIsExpected | src/code.ts:25-47 | from the empty state the list is exactly the first occurrences, numbered by position, and the seen-set holds every visible solid fill's hex |
| SelectionScan.ScanIsExpected | src/code.ts:23-68 | the scan of a selection is the first-occurrence list of its pre-order fills |
| SelectionScan.ExpectedEntriesAreFirsts | src/code.ts:38-46 | entry k comes from a visible solid fill met before any other with its hex, carries that fill's colour and hex, and is named after its node, or, when the node is unnamed, the generated name for k+1, which `FallbackNameSpelling` shows is `Color k+1` |
| SelectionScan.FirstsAreRecorded | src/code.ts:38-47 | every first occurrence is recorded |
| SelectionScan.StepKeepsConsistent | src/code.ts:39-47 | recorded hexes stay distinct and equal to the seen-set |
| SelectionScan.RunKeepsConsistent | src/code.ts:35-61 | the invariant holds after any number of fills |
| SelectionScan.ExpectedHexesDistinct | src/code.ts:39-47 | no hex is recorded twice, and the recorded hexes are those of all visible solid fills |
| SelectionScan.ContributingCount | src/code.ts:38 | the count of visible solid fills is at most the number of fills |
| SelectionScan.ExpectedWithinContributing | src/code.ts:36-47 | no more entries than visible solid fills |
| SelectionScan.ExpectedGrowsByAppending | src/code.ts:42 | scanning more fills only appends to the earlier result |
| SelectionScan.ScanEntriesCarryTheirHex | src/code.ts:39-45 | every reported colour carries the hex of its own colour, and no hex twice |
| SelectionScan.ScanWithinVisibleSolidFills | src/code.ts:36-47 | a scan reports at most as many colours as the selection has visible solid fills |
| SelectionScan.PreorderFaithful | src/code.ts:39 | every fill the walk meets is paired with its own hex |
| Panel.Remove | src/ui.tsx:59 | every occurrence of the id is dropped and every other id keeps its membership |
| Panel.Toggle | src/ui.tsx:56-62 | the toggled id's membership flips, every other id's is unchanged, and an absent id is appended at the end |
| Panel.RemoveAbsent | src/ui.tsx:59 | filtering out an id that is not there changes nothing |
| Panel.RemoveAppend | src/ui.tsx:59 | filtering distributes over concatenation |
| Panel.ToggleKeepsOthersInOrder | src/ui.tsx:56-62 | with the toggled id set aside, the selection is unchanged, so the other ids keep their relative order |
| Panel.ToggleKeepsNoDuplicates | src/ui.tsx:56-62 | a duplicate-free selection stays duplicate-free |
| Panel.ToggleTwiceRestores | src/ui.tsx:56-62 | toggling an unselected id twice restores the selection |
| Panel.Step | src/ui.tsx:27-85 | scan and cancel only send their message; a toggle changes only the selection; loading is sent exactly when something is selected, and creation exactly when colours are listed, each for the whole list, changing nothing; rescan clears the selection, hides both views and asks for collections; each listener sets its list and switches the views, leaving the selection and the other list unchanged and sending nothing |
| Panel.Run | src/ui.tsx:52-85 | at most one message per event |
| Panel.SelectionStaysDuplicateFree | src/ui.tsx:56-62 | over any sequence of events the selection never holds an id twice |
| Panel.LoadRequestsAreWellFormed | src/ui.tsx:64-68 | every load request sent from the initial panel names a non-empty, duplicate-free selection |

## Left out

- Host calls are not modelled. This covers creating rectangles, components and groups, resizing, binding a variable to a fill, `notify`, the viewport scroll, the page selection, `showUI` and `closePlugin`. They are foreign capabilities. Their visible effect is the model's output records, and a per-item success flag says whether the host built a component.
- The failure of `setBoundVariableForPaint` or `getVariableByIdAsync` during binding (src/services/component-service.ts:44-60) is not modelled. It is caught and logged, and it does not affect whether the component is created.
- `async`/`await` and `Promise.all` are not modelled. The logic is sequential, so each store lookup is a map access.
- IEEE-754 arithmetic is not modelled. `v * 255`, `/ 255`, `/ 2` and `Math.round` are exact over the reals. Floating-point quirks, such as the half-way cases of binary fractions, are out of scope.
- `Object.keys` order is not modelled. The first mode is the first entry of the variable's mode list, taken to be in `Object.keys` order. A variable with no modes reads as a non-colour value.
- A value with `r`, `g` and `b` that also looks like an alias is not modelled. The mode-value type makes the three kinds exclusive, and the plugin would treat such a value as a direct colour anyway.
- The console warnings and error logs are not modelled.
- Non-array fills (`figma.mixed`) and nodes without fills or children are modelled as empty lists.
- `src/main.ts` message routing is not modelled. Its `create-components` handler does not forward a prefix, so the model's prefix is an input to swatch creation.
- `createColorVariantComponents` and the message handler in `src/code.ts` are not modelled. They only construct host components and route messages.
- The status indicator's two-second timer in `src/ui.tsx` is not modelled. It is a clock effect with no bearing on the data.
- The Preact components, `src/ui.ts`, the files under `backup/`, and the test setup and typings are not modelled. They hold rendering, superseded copies and configuration only.
- The `rgbToHex` nested in `scanColorVariants` (src/code.ts:27-33) is the same function as the one in `color-utils`. The scan therefore uses `ColorUtils.RgbToHex`.
- ColorUtils.RgbToHex: a component outside [0,1] is encoded digit by digit, as the plugin does. It can give a leading `-` or three digits. The format guarantees are stated only for components in [0,1].
- VariableService.ColorVariables: the function's own contract states only the empty selection. The concatenation in host order is the lemma `ColorVariablesOfSelectedIds`, because as an ensures it would be instantiated wherever the function appears.
- VariableService.Summary: the function's own contract bounds the count. The exact count is the lemma `SummaryCountIsResolvable`, for the same reason.
- VariableService.Collections: the function's own contract states a length bound and positive counts. Order and multiplicity are the lemmas `CollectionsAppend` and `CollectionsOfOne`, for the same reason.
- SelectionScan.FallbackName: the function's own contract states only the `Color ` prefix. That the rest spells the number in base ten without a leading zero is the lemma `FallbackNameSpelling`, because as an ensures it made the scan's proofs too costly.

=== FILE: color_utils.dfy ===
/**
 The hex colour codec: `rgbToHex` renders a normalised colour as `#rrggbb`,
 `hexToRgb` reads six hex digits (optional `#`, either case) back into a
 normalised colour. Arithmetic is exact (`real`); the floating-point
 rounding of `v * 255` and `/ 255` is not modelled.
 */
module ColorUtils {
  import opened Common
  import opened Types

  predicate InUnitRange(c: RGB) {
    0.0 <= c.r <= 1.0 && 0.0 <= c.g <= 1.0 && 0.0 <= c.b <= 1.0
  }

  /** A component that is an exact multiple of 1/255 in [0, 1], i.e. one byte's worth. */
  predicate IsByteFraction(x: real) {
    0.0 <= x <= 1.0 && (x * 255.0).Floor as real == x * 255.0
  }

  predicate IsByteColor(c: RGB) {
    IsByteFraction(c.r) && IsByteFraction(c.g) && IsByteFraction(c.b)
  }

  /** `Math.round`: the nearest integer, halves rounding up. */
  function Round(x: real): (n: int)
    ensures n as real - 0.5 <= x < n as real + 0.5
  {
    (x + 0.5).Floor
  }

  /** `n.toString(16)` for any integer: a negative value gets a leading '-'. */
  function IntToHex(n: int): (r: string)
    ensures 1 <= |r|
    ensures n < 0 ==> r[0] == '-'
  {
    if n < 0 then "-" + HexDigits(-n) else HexDigits(n)
  }

  /** A non-negative integer is spelled in lower-case digits worth it; a negative one is '-' and the spelling of its magnitude. */
  lemma IntToHexSpelling(n: int)
    ensures n >= 0 ==> AllLowerHexDigits(IntToHex(n)) && AllHexDigits(IntToHex(n)) && HexValue(IntToHex(n)) == n
    ensures n < 0 ==>
      && |IntToHex(n)| >= 2 && IntToHex(n)[0] == '-'
      && AllLowerHexDigits(IntToHex(n)[1..]) && AllHexDigits(IntToHex(n)[1..]) && HexValue(IntToHex(n)[1..]) == -n
  {
    if n < 0 {
      HexDigitsSpelling(-n);
      assert IntToHex(n)[1..] == HexDigits(-n);
    } else {
      HexDigitsSpelling(n);
    }
  }

  /** `toString(16)` of an integer, padded with '0' when it is a single digit. */
  function PaddedHex(n: int): (s: string)
    ensures 0 <= n < 256 ==> |s| == 2 && AllLowerHexDigits(s) && AllHexDigits(s) && PairValue(s) == n
  {
    var hex := IntToHex(n);
    if |hex| == 1 then
      var s := "0" + hex;
      HexDigitsSpelling(n);
      assert s[..1] == "0";
      HexValueOfPair(s);
      s
    else
      if 0 <= n < 256 then HexDigitsSpelling(n); HexValueOfPair(hex); hex else hex
  }

  /** The inner `toHex`: scale by 255, round, spell in hex, pad a single digit with '0'. */
  function ComponentHex(v: real): (s: string)
    ensures 0.0 <= v <= 1.0 ==> |s| == 2 && AllLowerHexDigits(s) && AllHexDigits(s) && PairValue(s) == Round(v * 255.0)
  {
    PaddedHex(Round(v * 255.0))
  }

  /** `rgbToHex`: '#' followed by `toHex` of each component. */
  function RgbToHex(c: RGB): (s: string)
    ensures InUnitRange(c) ==> |s| == 7
  {
    "#" + ComponentHex(c.r) + ComponentHex(c.g) + ComponentHex(c.b)
  }

  /**
   For a colour in range, `rgbToHex` writes '#' and six lower-case hex digits,
   and reading each digit pair back gives that component's rounded byte.
   */
  lemma RgbToHexFormat(c: RGB)
    requires InUnitRange(c)
    ensures var s := RgbToHex(c);
      && |s| == 7 && s[0] == '#'
      && AllLowerHexDigits(s[1..]) && AllHexDigits(s[1..])
      && PairValue(s[1..3]) == Round(c.r * 255.0)
      && PairValue(s[3..5]) == Round(c.g * 255.0)
      && PairValue(s[5..7]) == Round(c.b * 255.0)
  {
    var red, green, blue := ComponentHex(c.r), ComponentHex(c.g), ComponentHex(c.b);
    var s := RgbToHex(c);
    assert s == "#" + red + green + blue;
    HashAndPairs(red, green, blue);
  }

  /** Where the three digit pairs sit in `#rrggbb`. */
  lemma HashAndPairs(red: string, green: string, blue: string)
    ensures |red| == 2 && |green| == 2 && |blue| == 2 ==>
      var s := "#" + red + green + blue;
      && |s| == 7 && s[0] == '#' && s[1..] == red + green + blue
      && s[1..3] == red && s[3..5] == green && s[5..7] == blue
    ensures
      && |red| == 2 && |green| == 2 && |blue| == 2
      && AllLowerHexDigits(red) && AllLowerHexDigits(green) && AllLowerHexDigits(blue)
      ==> AllLowerHexDigits(("#" + red + green + blue)[1..]) && AllHexDigits(("#" + red + green + blue)[1..])
  {
    var s := "#" + red + green + blue;
    if |red| == 2 && |green| == 2 && |blue| == 2 {
      assert forall i :: 1 <= i < 3 ==> s[i] == red[i - 1];
      assert forall i :: 3 <= i < 5 ==> s[i] == green[i - 3];
      assert forall i :: 5 <= i < 7 ==> s[i] == blue[i - 5];
    }
  }

  /** The text the pattern's three groups capture: all of `s` after an optional leading '#'. */
  function StripHash(s: string): string {
    if |s| > 0 && s[0] == '#' then s[1..] else s
  }

  /** `^#?([a-f\d]{2})([a-f\d]{2})([a-f\d]{2})$` with the `i` flag, as its two alternatives. */
  predicate MatchesHexPattern(s: string)
    ensures MatchesHexPattern(s) ==> |StripHash(s)| == 6 && AllHexDigits(StripHash(s))
  {
    || (|s| == 6 && AllHexDigits(s))
    || (|s| == 7 && s[0] == '#' && AllHexDigits(s[1..]))
  }

  /** `parseInt(pair, 16) / 255`. */
  function PairComponent(pair: string): (x: real)
    requires |pair| == 2 && AllHexDigits(pair)
    ensures IsByteFraction(x)
  {
    var k := PairValue(pair);
    assert (k as real / 255.0) * 255.0 == k as real;
    k as real / 255.0
  }

  /** `hexToRgb`: `None` unless the whole string matches the pattern; each component is a byte over 255. */
  function HexToRgb(s: string): (r: Option<RGB>)
    ensures r.Some? ==> IsByteColor(r.value) && InUnitRange(r.value)
  {
    var digits := StripHash(s);
    if |digits| == 6 && AllHexDigits(digits) then
      Some(RGB(PairComponent(digits[0..2]), PairComponent(digits[2..4]), PairComponent(digits[4..6])))
    else None
  }

  /** ASCII lower-casing of the letters A-F; every other character is kept. */
  function LowerHexChar(c: char): char {
    if 'A' <= c <= 'F' then (c as int - 'A' as int + 'a' as int) as char else c
  }

  /** ASCII lower-casing of a whole string, character by character. */
  function LowerHex(s: string): string {
    seq(|s|, i requires 0 <= i < |s| => LowerHexChar(s[i]))
  }

  /** `hexToRgb` accepts exactly the strings the pattern matches. */
  lemma HexToRgbAcceptsPattern(s: string)
    ensures HexToRgb(s).Some? <==> MatchesHexPattern(s)
  {
    if |s| > 0 && s[0] == '#' {
      assert !IsHexDigit(s[0]);
    }
  }

  /** The inputs the plugin's tests reject. */
  lemma HexToRgbRejects()
    ensures HexToRgb("") == None
    ensures HexToRgb("#gg0000") == None
    ensures HexToRgb("#ff00") == None
    ensures HexToRgb("xyz") == None
  {
    assert !IsHexDigit("#gg0000"[1]);
  }

  /** Lower-case digits are accepted with or without '#'. */
  lemma HexToRgbAccepts()
    ensures HexToRgb("#ff0000") == Some(RGB(1.0, 0.0, 0.0))
    ensures HexToRgb("ff0000") == Some(RGB(1.0, 0.0, 0.0))
  {
    assert PairComponent("ff") == 1.0 && PairComponent("00") == 0.0;
    DecodeHashPairs("ff", "00", "00");
    assert "#" + "ff" + "00" + "00" == "#ff0000";
    assert "ff" + "00" + "00" == "ff0000";
  }

  /** Upper-case digits read the same as lower-case ones. */
  lemma HexToRgbAcceptsUpperCase()
    ensures HexToRgb("#FF0000") == Some(RGB(1.0, 0.0, 0.0))
  {
    assert PairComponent("FF") == 1.0 && PairComponent("00") == 0.0;
    DecodeHashPairs("FF", "00", "00");
    assert "#" + "FF" + "00" + "00" == "#FF0000";
  }

  /** Mixed case reads digit by digit: `#aAbBcC` is 170, 187, 204 over 255. */
  lemma HexToRgbMixedCase()
    ensures HexToRgb("#aAbBcC") == Some(RGB(170.0 / 255.0, 187.0 / 255.0, 204.0 / 255.0))
  {
    assert PairComponent("aA") == 170.0 / 255.0;
    assert PairComponent("bB") == 187.0 / 255.0;
    assert PairComponent("cC") == 204.0 / 255.0;
    DecodeHashPairs("aA", "bB", "cC");
    assert "#" + "aA" + "bB" + "cC" == "#aAbBcC";
  }

  /** The plugin's test vectors for `rgbToHex`, including half-up rounding and zero padding. */
  lemma RgbToHexExamples()
    ensures RgbToHex(RGB(1.0, 0.0, 0.0)) == "#ff0000"
    ensures RgbToHex(RGB(0.5, 0.5, 0.5)) == "#808080"
    ensures RgbToHex(RGB(0.25, 0.5, 0.75)) == "#4080bf"
    ensures RgbToHex(RGB(0.01, 0.01, 0.01)) == "#030303"
  {
    ComponentHexOfByte(1.0, 255);
    ComponentHexOfByte(0.0, 0);
    ComponentHexOfByte(0.5, 128);
    ComponentHexOfByte(0.25, 64);
    ComponentHexOfByte(0.75, 191);
    ComponentHexOfByte(0.01, 3);
  }

  /** The two digits `toHex` writes for a component that rounds to byte `k`. */
  lemma ComponentHexOfByte(v: real, k: int)
    requires 0.0 <= v <= 1.0 && Round(v * 255.0) == k
    ensures 0 <= k < 256
    ensures ComponentHex(v) == [LowerHexDigit(k / 16), LowerHexDigit(k % 16)]
  {
    PairOfValue(ComponentHex(v), k);
  }

  /** Two lower-case hex digits are determined by their value. */
  lemma PairOfValue(s: string, k: nat)
    requires |s| == 2 && AllLowerHexDigits(s) && AllHexDigits(s) && PairValue(s) == k
    ensures k < 256
    ensures s == [LowerHexDigit(k / 16), LowerHexDigit(k % 16)]
  {
    LowerDigitUnique(s[0]);
    LowerDigitUnique(s[1]);
  }

  lemma LowerDigitUnique(c: char)
    requires IsLowerHexDigit(c)
    ensures LowerHexDigit(DigitValue(c)) == c
  {
  }

  /** A byte fraction scales and rounds back to its byte. */
  lemma RoundByteFraction(x: real)
    requires IsByteFraction(x)
    ensures 0 <= Round(x * 255.0) <= 255
    ensures Round(x * 255.0) as real / 255.0 == x
  {
    var k := (x * 255.0).Floor;
    assert x * 255.0 == k as real;
    assert Round(x * 255.0) == k;
  }

  /** A byte over 255, scaled and rounded, is the byte again. */
  lemma RoundOfByte(k: int)
    requires 0 <= k < 256
    ensures Round((k as real / 255.0) * 255.0) == k
  {
    assert (k as real / 255.0) * 255.0 == k as real;
  }

  /** Decoding '#' and three digit pairs reads each pair as one component. */
  lemma DecodeHashPairs(red: string, green: string, blue: string)
    requires |red| == 2 && |green| == 2 && |blue| == 2
    requires AllHexDigits(red) && AllHexDigits(green) && AllHexDigits(blue)
    ensures HexToRgb("#" + red + green + blue) == Some(RGB(PairComponent(red), PairComponent(green), PairComponent(blue)))
    ensures HexToRgb(red + green + blue) == Some(RGB(PairComponent(red), PairComponent(green), PairComponent(blue)))
  {
    var digits := red + green + blue;
    assert ("#" + red + green + blue)[1..] == digits;
    assert digits[0..2] == red && digits[2..4] == green && digits[4..6] == blue;
    assert AllHexDigits(digits) by {
      assert forall i :: 0 <= i < 2 ==> digits[i] == red[i];
      assert forall i :: 2 <= i < 4 ==> digits[i] == green[i - 2];
      assert forall i :: 4 <= i < 6 ==> digits[i] == blue[i - 4];
    }
    assert StripHash(digits) == digits by {
      assert IsHexDigit(digits[0]);
    }
  }

  /** Encoding a byte colour and decoding the text gives the same colour back. */
  lemma {:induction false} ByteColorRoundTrip(c: RGB)
    requires IsByteColor(c)
    ensures HexToRgb(RgbToHex(c)) == Some(c)
  {
    ComponentRoundTrip(c.r);
    ComponentRoundTrip(c.g);
    ComponentRoundTrip(c.b);
    var red, green, blue := ComponentHex(c.r), ComponentHex(c.g), ComponentHex(c.b);
    DecodeHashPairs(red, green, blue);
  }

  /** One byte fraction survives `toHex` followed by `parseInt(_, 16) / 255`. */
  lemma ComponentRoundTrip(x: real)
    requires IsByteFraction(x)
    ensures |ComponentHex(x)| == 2 && AllHexDigits(ComponentHex(x))
    ensures PairComponent(ComponentHex(x)) == x
  {
    RoundByteFraction(x);
  }

  /** For any in-range colour the round trip lands within half a step (1/510) of each component. */
  lemma {:induction false} RoundTripWithinHalfStep(c: RGB)
    requires InUnitRange(c)
    ensures HexToRgb(RgbToHex(c)).Some?
    ensures var d := HexToRgb(RgbToHex(c)).value;
      && -1.0 / 510.0 <= d.r - c.r <= 1.0 / 510.0
      && -1.0 / 510.0 <= d.g - c.g <= 1.0 / 510.0
      && -1.0 / 510.0 <= d.b - c.b <= 1.0 / 510.0
  {
    var red, green, blue := ComponentHex(c.r), ComponentHex(c.g), ComponentHex(c.b);
    DecodeHashPairs(red, green, blue);
    ComponentWithinHalfStep(c.r);
    ComponentWithinHalfStep(c.g);
    ComponentWithinHalfStep(c.b);
  }

  /** One in-range component comes back from `toHex` and `parseInt` within 1/510. */
  lemma ComponentWithinHalfStep(x: real)
    requires 0.0 <= x <= 1.0
    ensures |ComponentHex(x)| == 2 && AllHexDigits(ComponentHex(x))
    ensures -1.0 / 510.0 <= PairComponent(ComponentHex(x)) - x <= 1.0 / 510.0
  {
    assert PairComponent(ComponentHex(x)) == Round(x * 255.0) as real / 255.0;
  }

  /** Lower-casing six digits is lower-casing each pair. */
  lemma LowerHexOfPairs(digits: string)
    requires |digits| == 6
    ensures LowerHex(digits) == LowerHex(digits[0..2]) + LowerHex(digits[2..4]) + LowerHex(digits[4..6])
  {
  }

  /** Decoding valid text and encoding again gives '#' and the same six digits, lower-cased. */
  lemma {:induction false} HexRoundTrip(s: string)
    requires MatchesHexPattern(s)
    ensures HexToRgb(s).Some?
    ensures RgbToHex(HexToRgb(s).value) == "#" + LowerHex(StripHash(s))
  {
    HexToRgbAcceptsPattern(s);
    var digits := StripHash(s);
    assert |digits| == 6 && AllHexDigits(digits);
    assert HexToRgb(s) == HexToRgb(digits) by {
      assert IsHexDigit(digits[0]);
    }
    DigitsRoundTrip(digits);
  }

  /** The round trip on six bare digits. */
  lemma DigitsRoundTrip(digits: string)
    requires |digits| == 6 && AllHexDigits(digits)
    ensures HexToRgb(digits).Some?
    ensures RgbToHex(HexToRgb(digits).value) == "#" + LowerHex(digits)
  {
    var red, green, blue := digits[0..2], digits[2..4], digits[4..6];
    DecodeSixDigits(digits);
    EncodePairs(red, green, blue);
    LowerHexOfPairs(digits);
  }

  /** Six bare digits decode pair by pair. */
  lemma DecodeSixDigits(digits: string)
    requires |digits| == 6 && AllHexDigits(digits)
    ensures HexToRgb(digits) ==
      Some(RGB(PairComponent(digits[0..2]), PairComponent(digits[2..4]), PairComponent(digits[4..6])))
  {
    var red, green, blue := digits[0..2], digits[2..4], digits[4..6];
    assert digits == red + green + blue;
    DecodeHashPairs(red, green, blue);
  }

  /** Encoding the colour three pairs decode to writes the pairs back, lower-cased. */
  lemma EncodePairs(red: string, green: string, blue: string)
    requires |red| == 2 && |green| == 2 && |blue| == 2
    requires AllHexDigits(red) && AllHexDigits(green) && AllHexDigits(blue)
    ensures RgbToHex(RGB(PairComponent(red), PairComponent(green), PairComponent(blue)))
      == "#" + LowerHex(red) + LowerHex(green) + LowerHex(blue)
  {
    PairRoundTrip(red);
    PairRoundTrip(green);
    PairRoundTrip(blue);
  }

  /** One digit pair: `toHex(parseInt(pair, 16) / 255)` is the pair lower-cased. */
  lemma PairRoundTrip(pair: string)
    requires |pair| == 2 && AllHexDigits(pair)
    ensures ComponentHex(PairComponent(pair)) == LowerHex(pair)
  {
    var k := PairValue(pair);
    ComponentHexOfPair(pair);
    PaddedHexOfByte(k);
    PairDigits(pair);
  }

  /** Scaling a pair's component back by 255 and rounding recovers the pair's value. */
  lemma ComponentHexOfPair(pair: string)
    requires |pair| == 2 && AllHexDigits(pair)
    ensures ComponentHex(PairComponent(pair)) == PaddedHex(PairValue(pair))
  {
    RoundOfByte(PairValue(pair));
  }

  /** `toHex` of a byte is the byte's two canonical digits. */
  lemma PaddedHexOfByte(k: nat)
    requires k < 256
    ensures PaddedHex(k) == [LowerHexDigit(k / 16), LowerHexDigit(k % 16)]
  {
    PairOfValue(PaddedHex(k), k);
  }

  /** The canonical digits of a pair's value are the pair lower-cased. */
  lemma PairDigits(pair: string)
    requires |pair| == 2 && AllHexDigits(pair)
    ensures [LowerHexDigit(PairValue(pair) / 16), LowerHexDigit(PairValue(pair) % 16)] == LowerHex(pair)
  {
    SplitByte(DigitValue(pair[0]), DigitValue(pair[1]));
    LowerPair(pair);
  }

  /** A byte written as two base-16 digits splits back into them. */
  lemma SplitByte(hi: nat, lo: nat)
    requires hi < 16 && lo < 16
    ensures (16 * hi + lo) / 16 == hi && (16 * hi + lo) % 16 == lo
  {
  }

  /** Lower-casing a digit pair is writing each digit's value canonically. */
  lemma LowerPair(pair: string)
    requires |pair| == 2 && AllHexDigits(pair)
    ensures LowerHex(pair) == [LowerHexDigit(DigitValue(pair[0])), LowerHexDigit(DigitValue(pair[1]))]
  {
    LowerHexDigitOfValue(pair[0]);
    LowerHexDigitOfValue(pair[1]);
  }
}

=== FILE: common.dfy ===
/**
 Shared helpers for the plugin model: an optional value (the plugin's
 `null`/`undefined` results) and the two ways the plugin turns numbers
 into text, `Number.prototype.toString(16)` and `toString()` in base ten.
 */
module Common {

  /** `None` stands for the plugin's `null` / `undefined`. */
  datatype Option<+T> = None | Some(value: T)

  /** A character the pattern `[a-f\d]` matches under the `i` flag. */
  predicate IsHexDigit(c: char) {
    '0' <= c <= '9' || 'a' <= c <= 'f' || 'A' <= c <= 'F'
  }

  /** A character `toString(16)` can produce (it never writes upper case). */
  predicate IsLowerHexDigit(c: char) {
    '0' <= c <= '9' || 'a' <= c <= 'f'
  }

  predicate IsDecimalDigit(c: char) {
    '0' <= c <= '9'
  }

  predicate AllHexDigits(s: string) {
    forall i :: 0 <= i < |s| ==> IsHexDigit(s[i])
  }

  predicate AllLowerHexDigits(s: string) {
    forall i :: 0 <= i < |s| ==> IsLowerHexDigit(s[i])
  }

  predicate AllDecimalDigits(s: string) {
    forall i :: 0 <= i < |s| ==> IsDecimalDigit(s[i])
  }

  /** The numeric value of one hex digit, either case (as `parseInt(_, 16)` reads it). */
  function DigitValue(c: char): (v: nat)
    requires IsHexDigit(c)
    ensures v < 16
    ensures IsDecimalDigit(c) <==> v < 10
  {
    if '0' <= c <= '9' then c as int - '0' as int
    else if 'a' <= c <= 'f' then c as int - 'a' as int + 10
    else c as int - 'A' as int + 10
  }

  /** The digit `toString(16)` writes for a value below 16. */
  function LowerHexDigit(d: nat): (c: char)
    requires d < 16
    ensures IsLowerHexDigit(c) && DigitValue(c) == d
  {
    if d < 10 then ('0' as int + d) as char else ('a' as int + d - 10) as char
  }

  /** Lower-casing a hex digit keeps its value; a digit `toString(16)` writes is its value's canonical digit. */
  lemma LowerHexDigitOfValue(c: char)
    requires IsHexDigit(c)
    ensures LowerHexDigit(DigitValue(c)) == if 'A' <= c <= 'F' then (c as int - 'A' as int + 'a' as int) as char else c
  {
  }

  /** Big-endian value of a string of hex digits, as `parseInt(s, 16)` reads it. */
  function HexValue(s: string): nat
    requires AllHexDigits(s)
  {
    if |s| == 0 then 0 else 16 * HexValue(s[..|s| - 1]) + DigitValue(s[|s| - 1])
  }

  /** `parseInt(s, 16)` of a two-digit string: sixteen times the first digit plus the second. */
  function PairValue(s: string): (v: nat)
    requires |s| == 2 && AllHexDigits(s)
    ensures v < 256
  {
    16 * DigitValue(s[0]) + DigitValue(s[1])
  }

  lemma HexValueOfPair(s: string)
    requires |s| == 2 && AllHexDigits(s)
    ensures HexValue(s) == PairValue(s)
  {
    assert s[..1][..0] == [];
    assert HexValue(s[..1]) == DigitValue(s[0]);
  }

  /** `n.toString(16)` for `n >= 0`: base-16 digits, most significant first. */
  function HexDigits(n: nat): (s: string)
    ensures 1 <= |s|
    decreases n
  {
    if n < 16 then [LowerHexDigit(n)] else HexDigits(n / 16) + [LowerHexDigit(n % 16)]
  }

  /**
   `toString(16)` writes the shortest lower-case spelling that `parseInt(_, 16)`
   reads back as `n`: no leading zero unless `n` is zero.
   */
  lemma {:induction false} HexDigitsSpelling(n: nat)
    ensures var s := HexDigits(n);
      && 1 <= |s|
      && AllLowerHexDigits(s) && AllHexDigits(s)
      && HexValue(s) == n
      && (|s| == 1 || s[0] != '0')
      && (|s| == 1 <==> n < 16)
      && (n < 256 ==> |s| <= 2)
    decreases n
  {
    if n >= 16 {
      var high := HexDigits(n / 16);
      HexDigitsSpelling(n / 16);
      var s := HexDigits(n);
      assert s[..|s| - 1] == high;
      assert s[0] == high[0];
    }
  }

  /** Value of a string of decimal digits. */
  function DecimalValue(s: string): nat
    requires AllDecimalDigits(s)
  {
    if |s| == 0 then 0
    else
      assert IsDecimalDigit(s[|s| - 1]);
      10 * DecimalValue(s[..|s| - 1]) + DigitValue(s[|s| - 1])
  }

  /** `n.toString()` for `n >= 0`: base-ten digits, most significant first. */
  function DecimalDigits(n: nat): (s: string)
    ensures 1 <= |s|
    decreases n
  {
    var last := ('0' as int + n % 10) as char;
    if n < 10 then [last] else DecimalDigits(n / 10) + [last]
  }

  /** `toString()` writes decimal digits that read back as `n`. */
  lemma {:induction false} DecimalDigitsSpelling(n: nat)
    ensures SpellsDecimal(DecimalDigits(n), n)
    decreases n
  {
    if n >= 10 {
      var high := DecimalDigits(n / 10);
      DecimalDigitsSpelling(n / 10);
      var s := DecimalDigits(n);
      assert s[..|s| - 1] == high;
      assert s[0] == high[0];
    }
  }

  /** `s` is a non-empty string of decimal digits worth `n`, with no leading zero unless it is `0` itself. */
  predicate SpellsDecimal(s: string, n: nat) {
    |s| > 0 && AllDecimalDigits(s) && DecimalValue(s) == n && (|s| == 1 || s[0] != '0')
  }

  /** Distinct numbers are spelled differently, so `Color 1`, `Color 2`, ... never collide. */
  lemma DecimalDigitsInjective(m: nat, n: nat)
    requires DecimalDigits(m) == DecimalDigits(n)
    ensures m == n
  {
    DecimalDigitsSpelling(m);
    DecimalDigitsSpelling(n);
  }

  /** Concatenation regroups freely. */
  lemma AppendAssociative<T>(x: seq<T>, y: seq<T>, z: seq<T>)
    ensures (x + y) + z == x + (y + z)
  {
  }

  /** The values that are present, in their order: the plugin's filter-and-push loops. */
  function Present<T>(records: seq<Option<T>>): (r: seq<T>)
    ensures |r| <= |records|
  {
    if |records| == 0 then []
    else
      var prefix := Present(records[..|records| - 1]);
      var last := records[|records| - 1];
      if last.Some? then prefix + [last.value] else prefix
  }

  /** Keeping the present records distributes over concatenation. */
  lemma {:induction false} PresentAppend<T>(a: seq<Option<T>>, b: seq<Option<T>>)
    ensures Present(a + b) == Present(a) + Present(b)
    decreases |b|
  {
    if |b| == 0 {
      assert a + b == a;
    } else {
      var b' := b[..|b| - 1];
      assert (a + b)[..|a + b| - 1] == a + b';
      assert (a + b)[|a + b| - 1] == b[|b| - 1];
      PresentAppend(a, b');
    }
  }

  /** Every kept value sits at some position `j` of the input. */
  lemma {:induction false} PresentSource<T>(records: seq<Option<T>>, x: T) returns (j: nat)
    requires x in Present(records)
    ensures j < |records| && records[j] == Some(x)
    decreases |records|
  {
    var n := |records|;
    var init := records[..n - 1];
    if x in Present(init) {
      j := PresentSource(init, x);
      assert records[j] == init[j];
    } else {
      j := n - 1;
    }
  }

  /** Every present value of the input is kept. */
  lemma {:induction false} PresentEmitted<T>(records: seq<Option<T>>, j: nat)
    requires j < |records| && records[j].Some?
    ensures records[j].value in Present(records)
    decreases |records|
  {
    var n := |records|;
    var init := records[..n - 1];
    if j < n - 1 {
      assert init[j] == records[j];
      PresentEmitted(init, j);
    }
  }

  /** Positions of the input holding a value. */
  function PresentPositions<T>(records: seq<Option<T>>): set<int> {
    set j | 0 <= j < |records| && records[j].Some?
  }

  /** One value is kept per position holding one. */
  lemma {:induction false} PresentCount<T>(records: seq<Option<T>>)
    ensures |Present(records)| == |PresentPositions(records)|
    decreases |records|
  {
    var n := |records|;
    if n == 0 {
      assert PresentPositions(records) == {};
    } else {
      var init := records[..n - 1];
      PresentCount(init);
      var before := PresentPositions(init);
      assert forall j :: 0 <= j < n - 1 ==> init[j] == records[j];
      assert n - 1 !in before;
      if records[n - 1].Some? {
        assert PresentPositions(records) == before + {n - 1};
      } else {
        assert PresentPositions(records) == before;
      }
    }
  }
}

=== FILE: component_service.dfy ===
/**
 Swatch creation: one 120 x 120 component per colour variable, named with an
 optional prefix, laid out row by row in a five-column grid, grouped, and
 the group centred on the viewport. Every host call (creating rectangles,
 components and groups, binding the variable, notifying) is outside the
 model; whether the host managed to build a component is an input flag.
 */
module ComponentService {
  import opened Common
  import opened Types

  const SwatchSize: int := 120
  const Padding: int := 20
  const Columns: int := 5
  /** Distance between the left (top) edges of neighbouring cells. */
  const Pitch: int := SwatchSize + Padding

  const GroupBaseName: string := "Color Variant Components"
  const EmptyNotice: string := "No color variables selected"

  /** One colour variable and whether the host built its component (false when creation threw). */
  datatype Attempt = Attempt(variable: ColorVariable, succeeded: bool)

  /** A created component: its rectangle's name, its own name, its fill and its grid position. */
  datatype Swatch = Swatch(variableId: string, rectName: string, componentName: string, color: RGB, x: int, y: int)

  /** The group wrapping all created components. */
  datatype Group = Group(name: string, x: real, y: real, width: int, height: int)

  /** Everything `createColorComponents` leaves behind: components, the group, the notice. */
  datatype Outcome = Outcome(swatches: seq<Swatch>, group: Option<Group>, notice: Option<string>)

  // ---------------------------------------------------------------------------
  // Names

  /** The text an optional prefix contributes; absent and empty both contribute nothing. */
  function PrefixText(prefix: Option<string>): string {
    if prefix.Some? then prefix.value else ""
  }

  /** `prefix ? prefix + text : text`: the prefix is used only when present and non-empty. */
  function Prefixed(prefix: Option<string>, text: string): (r: string)
    ensures |r| == |PrefixText(prefix)| + |text|
    ensures r[|r| - |text|..] == text
  {
    if prefix.Some? && prefix.value != "" then prefix.value + text else text
  }

  /** The truthiness test makes no difference: the name is always the prefix text followed by the text. */
  lemma PrefixedIsConcat(prefix: Option<string>, text: string)
    ensures Prefixed(prefix, text) == PrefixText(prefix) + text
  {
    if prefix.Some? && prefix.value == "" {
      assert "" + text == text;
    } else if prefix.None? {
      assert "" + text == text;
    }
  }

  /** The component's name: the variable name behind the optional prefix. */
  function ComponentName(prefix: Option<string>, variable: ColorVariable): (r: string)
    ensures r == PrefixText(prefix) + variable.name
  {
    PrefixedIsConcat(prefix, variable.name);
    Prefixed(prefix, variable.name)
  }

  /** The group's name: the fixed group title behind the optional prefix. */
  function GroupName(prefix: Option<string>): (r: string)
    ensures r == PrefixText(prefix) + GroupBaseName
  {
    PrefixedIsConcat(prefix, GroupBaseName);
    Prefixed(prefix, GroupBaseName)
  }

  /** Without a usable prefix the names are the bare names. */
  lemma NoPrefixNames(prefix: Option<string>, variable: ColorVariable)
    requires prefix == None || prefix == Some("")
    ensures ComponentName(prefix, variable) == variable.name
    ensures GroupName(prefix) == "Color Variant Components"
  {
    assert "" + variable.name == variable.name;
    assert "" + GroupBaseName == GroupBaseName;
  }

  /** The notice issued after creating `n` components: `Created n color variant components`. */
  function CreatedNotice(n: nat): (r: string)
    ensures |r| >= 34
    ensures r[..8] == "Created "
    ensures r[|r| - 25..] == " color variant components"
    ensures SpellsDecimal(r[8..|r| - 25], n)
  {
    var digits := DecimalDigits(n);
    DecimalDigitsSpelling(n);
    var r := "Created " + digits + " color variant components";
    assert r[..8] == "Created ";
    assert r[|r| - 25..] == " color variant components";
    assert r[8..|r| - 25] == digits;
    r
  }

  /** Different counts give different notices. */
  lemma {:induction false} CreatedNoticeInjective(m: nat, n: nat)
    requires CreatedNotice(m) == CreatedNotice(n)
    ensures m == n
  {
    var dm, dn := DecimalDigits(m), DecimalDigits(n);
    var cm, cn := CreatedNotice(m), CreatedNotice(n);
    assert |dm| == |dn|;
    assert dm == cm[8..8 + |dm|];
    assert dn == cn[8..8 + |dn|];
    DecimalDigitsInjective(m, n);
  }

  /** A creation notice is never the empty-input notice. */
  lemma CreatedNoticeIsNotEmptyNotice(n: nat)
    ensures CreatedNotice(n) != EmptyNotice
  {
    assert CreatedNotice(n)[0] == 'C' != EmptyNotice[0];
  }

  // ---------------------------------------------------------------------------
  // Grid

  function Min(a: int, b: int): int {
    if a <= b then a else b
  }

  /** Left edge of the `i`-th created component: its column times the pitch. */
  function SwatchX(i: nat): (x: int)
    ensures 0 <= x <= (Columns - 1) * Pitch
  {
    (i % Columns) * Pitch
  }

  /** Top edge of the `i`-th created component: its row times the pitch. */
  function SwatchY(i: nat): (y: int)
    ensures 0 <= y
  {
    (i / Columns) * Pitch
  }

  /** `Math.ceil(n / 5)`, the number of grid rows. */
  function TotalRows(n: nat): (rows: nat)
    ensures Columns * rows >= n
    ensures n > 0 ==> Columns * (rows - 1) < n
  {
    (n + Columns - 1) / Columns
  }

  /** Width of the occupied grid: the full cells of the widest row, without trailing padding. */
  function TotalWidth(n: nat): (w: int)
    ensures n > 0 ==> SwatchSize <= w <= Columns * Pitch - Padding
  {
    Min(n, Columns) * Pitch - Padding
  }

  /** Height of the occupied grid: the full cells of all rows, without trailing padding. */
  function TotalHeight(n: nat): (h: int)
    ensures n > 0 ==> h >= SwatchSize && (h + Padding) % Pitch == 0
  {
    TotalRows(n) * Pitch - Padding
  }

  /** Row-major placement: the index is recovered from the position, so positions are distinct. */
  lemma GridIndexRecovered(i: nat)
    ensures SwatchX(i) % Pitch == 0 && SwatchY(i) % Pitch == 0
    ensures i == (SwatchY(i) / Pitch) * Columns + SwatchX(i) / Pitch
  {
  }

  /** Distinct indices never share a cell; their squares keep at least the padding apart. */
  lemma {:induction false} SwatchesDoNotOverlap(i: nat, j: nat)
    requires i != j
    ensures SwatchX(i) != SwatchX(j) || SwatchY(i) != SwatchY(j)
    ensures || SwatchX(i) + SwatchSize + Padding <= SwatchX(j)
            || SwatchX(j) + SwatchSize + Padding <= SwatchX(i)
            || SwatchY(i) + SwatchSize + Padding <= SwatchY(j)
            || SwatchY(j) + SwatchSize + Padding <= SwatchY(i)
  {
    var ci, cj, ri, rj := i % Columns, j % Columns, i / Columns, j / Columns;
    if ci < cj {
      assert SwatchX(i) + Pitch <= SwatchX(j) by { MulMonotone(ci + 1, cj); }
    } else if cj < ci {
      assert SwatchX(j) + Pitch <= SwatchX(i) by { MulMonotone(cj + 1, ci); }
    } else if ri < rj {
      assert SwatchY(i) + Pitch <= SwatchY(j) by { MulMonotone(ri + 1, rj); }
    } else {
      assert rj < ri;
      assert SwatchY(j) + Pitch <= SwatchY(i) by { MulMonotone(rj + 1, ri); }
    }
  }

  lemma MulMonotone(a: nat, b: nat)
    requires a <= b
    ensures a * Pitch <= b * Pitch
  {
  }

  /** Every component of an `n`-component grid lies inside the `TotalWidth` x `TotalHeight` box. */
  lemma {:induction false} SwatchesInsideBox(n: nat, i: nat)
    requires i < n
    ensures 0 <= SwatchX(i) && SwatchX(i) + SwatchSize <= TotalWidth(n)
    ensures 0 <= SwatchY(i) && SwatchY(i) + SwatchSize <= TotalHeight(n)
  {
    var rows := TotalRows(n);
    if n < Columns {
      assert i % Columns == i;
    }
    assert i % Columns < Min(n, Columns);
    MulMonotone(i % Columns + 1, Min(n, Columns));
    assert i / Columns < rows by {
      assert Columns * (i / Columns) <= i;
    }
    MulMonotone(i / Columns + 1, rows);
  }

  /** The box is tight: some component touches its right edge and some touches its bottom edge. */
  lemma {:induction false} BoxIsTight(n: nat)
    requires n > 0
    ensures exists i :: 0 <= i < n && SwatchX(i) + SwatchSize == TotalWidth(n)
    ensures SwatchY(n - 1) + SwatchSize == TotalHeight(n)
  {
    var last := Min(n, Columns) - 1;
    assert last % Columns == last;
    assert SwatchX(last) + SwatchSize == TotalWidth(n);
    var rows := TotalRows(n);
    assert (n - 1) / Columns == rows - 1;
  }

  /** The plugin's grid example: seven components, the seventh at (140, 140), in a 680 x 260 box. */
  lemma GridExample()
    ensures SwatchX(6) == 140 && SwatchY(6) == 140
    ensures TotalWidth(7) == 680 && TotalHeight(7) == 260
    ensures TotalWidth(1) == 120 && TotalHeight(1) == 120
  {
  }

  /** The group for `n` components, placed so that its box is centred on the viewport centre. */
  function GroupFor(n: nat, prefix: Option<string>, centerX: real, centerY: real): (g: Group)
    requires n > 0
    ensures g.name == PrefixText(prefix) + GroupBaseName
    ensures g.width > 0 && g.height > 0
    ensures g.width == TotalWidth(n) && g.height == TotalHeight(n)
    ensures g.x + g.width as real / 2.0 == centerX
    ensures g.y + g.height as real / 2.0 == centerY
  {
    var width, height := TotalWidth(n), TotalHeight(n);
    Group(GroupName(prefix), centerX - width as real / 2.0, centerY - height as real / 2.0, width, height)
  }

  // ---------------------------------------------------------------------------
  // Creation

  /** Each attempt's variable when its component was built, `None` when it was not. */
  function Built(attempts: seq<Attempt>): (r: seq<Option<ColorVariable>>)
    ensures |r| == |attempts|
  {
    seq(|attempts|, i requires 0 <= i < |attempts| =>
      if attempts[i].succeeded then Some(attempts[i].variable) else None)
  }

  /** The variables whose component was built, in input order. */
  function Successes(attempts: seq<Attempt>): (r: seq<ColorVariable>)
    ensures |r| <= |attempts|
  {
    Present(Built(attempts))
  }

  /** Positions of the attempts that succeeded. */
  function SucceededIndices(attempts: seq<Attempt>): set<int> {
    set i | 0 <= i < |attempts| && attempts[i].succeeded
  }

  /** Failures are skipped and nothing else is: one component per successful attempt. */
  lemma SuccessCount(attempts: seq<Attempt>)
    ensures |Successes(attempts)| == |SucceededIndices(attempts)|
  {
    PresentCount(Built(attempts));
    assert PresentPositions(Built(attempts)) == SucceededIndices(attempts);
  }

  /** Input order is kept: the successes of `a + b` are those of `a`, then those of `b`. */
  lemma SuccessesKeepOrder(a: seq<Attempt>, b: seq<Attempt>)
    ensures Successes(a + b) == Successes(a) + Successes(b)
  {
    var ba, bb := Built(a), Built(b);
    forall i | 0 <= i < |a + b|
      ensures Built(a + b)[i] == (ba + bb)[i]
    {
      if i < |a| {
        assert (a + b)[i] == a[i];
      } else {
        assert (a + b)[i] == b[i - |a|];
      }
    }
    assert Built(a + b) == ba + bb;
    PresentAppend(ba, bb);
  }

  /** A variable gets a component exactly when one of its attempts succeeded. */
  lemma SuccessesMembership(attempts: seq<Attempt>, v: ColorVariable)
    ensures v in Successes(attempts) <==>
      exists i :: 0 <= i < |attempts| && attempts[i].succeeded && attempts[i].variable == v
  {
    if v in Successes(attempts) {
      var i := PresentSource(Built(attempts), v);
    }
    if exists i :: 0 <= i < |attempts| && attempts[i].succeeded && attempts[i].variable == v {
      var i :| 0 <= i < |attempts| && attempts[i].succeeded && attempts[i].variable == v;
      PresentEmitted(Built(attempts), i);
    }
  }

  /** The component built for the `i`-th successful variable. */
  function Place(v: ColorVariable, prefix: Option<string>, i: nat): (s: Swatch)
    ensures s.variableId == v.id && s.rectName == v.name && s.color == v.color
    ensures s.componentName == PrefixText(prefix) + v.name
  {
    Swatch(v.id, v.name, ComponentName(prefix, v), v.color, SwatchX(i), SwatchY(i))
  }

  /** `createColorComponents` with the host's per-item outcomes and the viewport centre as inputs. */
  function CreateColorComponents(attempts: seq<Attempt>, prefix: Option<string>, centerX: real, centerY: real): (o: Outcome)
    ensures |attempts| == 0 ==> o == Outcome([], None, Some(EmptyNotice))
    ensures |o.swatches| == |Successes(attempts)|
    ensures forall k :: 0 <= k < |o.swatches| ==>
      && o.swatches[k].variableId == Successes(attempts)[k].id
      && o.swatches[k].rectName == Successes(attempts)[k].name
      && o.swatches[k].color == Successes(attempts)[k].color
      && o.swatches[k].componentName == PrefixText(prefix) + Successes(attempts)[k].name
      && o.swatches[k].x == SwatchX(k) && o.swatches[k].y == SwatchY(k)
    ensures o.group.Some? <==> |o.swatches| > 0
    ensures |o.swatches| > 0 ==> o.group == Some(GroupFor(|o.swatches|, prefix, centerX, centerY))
    ensures |o.swatches| > 0 ==> o.notice == Some(CreatedNotice(|o.swatches|))
    ensures o.notice.None? <==> |attempts| > 0 && |o.swatches| == 0
  {
    if |attempts| == 0 then Outcome([], None, Some(EmptyNotice))
    else
      var created := Successes(attempts);
      if |created| == 0 then Outcome([], None, None)
      else
        var swatches := seq(|created|, k requires 0 <= k < |created| => Place(created[k], prefix, k));
        Outcome(swatches, Some(GroupFor(|created|, prefix, centerX, centerY)), Some(CreatedNotice(|created|)))
  }

  /** The notice names the number of successful attempts, and appears only when that number is positive. */
  lemma CreatedNoticeCountsSuccesses(attempts: seq<Attempt>, prefix: Option<string>, centerX: real, centerY: real)
    requires |attempts| > 0
    ensures var o := CreateColorComponents(attempts, prefix, centerX, centerY);
      && (|SucceededIndices(attempts)| > 0 <==> o.notice == Some(CreatedNotice(|SucceededIndices(attempts)|)))
      && (|SucceededIndices(attempts)| == 0 <==> o.notice == None)
  {
    SuccessCount(attempts);
  }

  /** Every created component sits inside the group's box. */
  lemma CreatedInsideGroup(attempts: seq<Attempt>, prefix: Option<string>, centerX: real, centerY: real, k: nat)
    requires k < |Successes(attempts)|
    ensures var o := CreateColorComponents(attempts, prefix, centerX, centerY);
      && o.group.Some?
      && 0 <= o.swatches[k].x && o.swatches[k].x + SwatchSize <= o.group.value.width
      && 0 <= o.swatches[k].y && o.swatches[k].y + SwatchSize <= o.group.value.height
  {
    SwatchesInsideBox(|Successes(attempts)|, k);
  }

  /**
   The created group is the tight box of its swatches: some swatch touches its
   right edge and the last one touches its bottom edge.
   */
  lemma CreatedGroupIsTight(attempts: seq<Attempt>, prefix: Option<string>, centerX: real, centerY: real)
    requires |Successes(attempts)| > 0
    ensures var o := CreateColorComponents(attempts, prefix, centerX, centerY);
      && o.group.Some?
      && (exists k :: 0 <= k < |o.swatches| && o.swatches[k].x + SwatchSize == o.group.value.width)
      && o.swatches[|o.swatches| - 1].y + SwatchSize == o.group.value.height
  {
    BoxIsTight(|Successes(attempts)|);
  }

  /** The plugin's example of two successful creations. */
  lemma CreateTwoExample(v1: ColorVariable, v2: ColorVariable, centerX: real, centerY: real)
    ensures CreateColorComponents([Attempt(v1, true), Attempt(v2, true)], None, centerX, centerY).notice
      == Some("Created 2 color variant components")
  {
    TwoSuccesses(v1, v2);
    assert DecimalDigits(2) == "2";
    assert "Created " + "2" + " color variant components" == "Created 2 color variant components";
  }

  lemma TwoSuccesses(v1: ColorVariable, v2: ColorVariable)
    ensures |Successes([Attempt(v1, true), Attempt(v2, true)])| == 2
  {
    var built := Built([Attempt(v1, true), Attempt(v2, true)]);
    assert built == [Some(v1), Some(v2)];
    assert built[..1] == [Some(v1)];
    assert built[..1][..0] == [];
    assert Present(built[..1][..0]) == [];
    assert Present(built[..1]) == [v1];
    assert Present(built) == [v1, v2];
  }

  /** The plugin's example of an empty input: only the empty-input notice. */
  lemma CreateEmptyExample(centerX: real, centerY: real)
    ensures CreateColorComponents([], None, centerX, centerY) == Outcome([], None, Some("No color variables selected"))
  {
  }

  /** The plugin's example of a single failed creation: nothing is created and no notice is sent. */
  lemma CreateFailedExample(v: ColorVariable, centerX: real, centerY: real)
    ensures CreateColorComponents([Attempt(v, false)], None, centerX, centerY) == Outcome([], None, None)
  {
    var built := Built([Attempt(v, false)]);
    assert built == [None];
    assert built[..0] == [];
  }
}

=== FILE: panel.dfy ===
/**
 The plugin panel's state machine: the collection selection and the two
 views it switches between, the messages its buttons send to the host
 side, and what it does with the host's two replies. Rendering is not
 modelled; each handler becomes one case of `Step`.
 */
module Panel {
  import opened Common
  import opened Types

  /** The panel's state (the status indicator and its timer are left out). */
  datatype View = View(
    collections: seq<CollectionSummary>,
    selected: seq<string>,
    showCollectionSelection: bool,
    colorVariables: seq<ColorVariable>,
    showResults: bool)

  const Initial: View := View([], [], false, [], false)

  /** Messages the panel sends to the host side. */
  datatype Message =
    | GetCollections
    | GetColorVariables(collectionIds: seq<string>)
    | CreateComponents(variables: seq<ColorVariable>)
    | Cancel

  /** Button clicks, and the two replies the panel listens for. */
  datatype Event =
    | ScanClick
    | CollectionToggle(collectionId: string)
    | LoadVariables
    | RescanClick
    | CreateClick
    | CancelClick
    | ReceivedCollections(summaries: seq<CollectionSummary>)
    | ReceivedColorVariables(variables: seq<ColorVariable>)

  /** The state after an event and the message it sent, if any. */
  datatype Reaction = Reaction(view: View, sent: Option<Message>)

  predicate NoDuplicates(s: seq<string>) {
    forall i, j :: 0 <= i < j < |s| ==> s[i] != s[j]
  }

  /** `prev.filter(x => x !== id)`: every occurrence of `id` dropped, the rest in order. */
  function Remove(s: seq<string>, id: string): (r: seq<string>)
    ensures |r| <= |s|
    ensures id !in r
    ensures forall x :: x != id ==> (x in r <==> x in s)
  {
    if |s| == 0 then []
    else (if s[0] == id then [] else [s[0]]) + Remove(s[1..], id)
  }

  /** `handleCollectionToggle`: drop the id if it is selected, append it otherwise. */
  function Toggle(prev: seq<string>, id: string): (r: seq<string>)
    ensures id in r <==> id !in prev
    ensures forall x :: x != id ==> (x in r <==> x in prev)
    ensures id !in prev ==> |r| == |prev| + 1 && r[..|prev|] == prev
  {
    if id in prev then Remove(prev, id) else prev + [id]
  }

  /** Removing an id that is not there changes nothing. */
  lemma {:induction false} RemoveAbsent(s: seq<string>, id: string)
    requires id !in s
    ensures Remove(s, id) == s
  {
    if |s| > 0 {
      assert s[1..] + [] == s[1..];
      RemoveAbsent(s[1..], id);
      assert [s[0]] + s[1..] == s;
    }
  }

  /** Removal distributes over concatenation. */
  lemma {:induction false} RemoveAppend(a: seq<string>, b: seq<string>, id: string)
    ensures Remove(a + b, id) == Remove(a, id) + Remove(b, id)
  {
    if |a| == 0 {
      assert a + b == b;
    } else {
      assert (a + b)[0] == a[0] && (a + b)[1..] == a[1..] + b;
      RemoveAppend(a[1..], b, id);
    }
  }

  /** Removal keeps a duplicate-free list duplicate-free. */
  lemma {:induction false} RemoveKeepsNoDuplicates(s: seq<string>, id: string)
    requires NoDuplicates(s)
    ensures NoDuplicates(Remove(s, id))
  {
    if |s| > 0 {
      var rest := Remove(s[1..], id);
      RemoveKeepsNoDuplicates(s[1..], id);
      assert s[0] !in s[1..];
      assert s[0] !in rest;
    }
  }

  /** The other selected ids keep their relative order: with `id` set aside, nothing changed. */
  lemma ToggleKeepsOthersInOrder(prev: seq<string>, id: string)
    ensures Remove(Toggle(prev, id), id) == Remove(prev, id)
  {
    if id !in prev {
      RemoveAppend(prev, [id], id);
      assert Remove([id][1..], id) == [];
      assert Remove(prev, id) + [] == Remove(prev, id);
    } else {
      RemoveAbsent(Remove(prev, id), id);
    }
  }

  /** A duplicate-free selection stays duplicate-free. */
  lemma ToggleKeepsNoDuplicates(prev: seq<string>, id: string)
    requires NoDuplicates(prev)
    ensures NoDuplicates(Toggle(prev, id))
  {
    if id in prev {
      RemoveKeepsNoDuplicates(prev, id);
    }
  }

  /** Toggling an unselected id twice restores the selection. */
  lemma ToggleTwiceRestores(prev: seq<string>, id: string)
    requires id !in prev
    ensures Toggle(Toggle(prev, id), id) == prev
  {
    RemoveAppend(prev, [id], id);
    RemoveAbsent(prev, id);
    assert Remove([id][1..], id) == [];
    assert prev + [] == prev;
  }

  /**
   The panel's reaction to one event; every handler and listener is one case.
   Loading is requested exactly when something is selected, and creation
   exactly when colours are listed, each for the whole list; rescanning
   clears the selection and hides both views; the two replies switch views.
   */
  function Step(v: View, e: Event): (r: Reaction)
    ensures e == ScanClick ==> r == Reaction(v, Some(GetCollections))
    ensures e == CancelClick ==> r == Reaction(v, Some(Cancel))
    ensures e.CollectionToggle? ==> r == Reaction(v.(selected := Toggle(v.selected, e.collectionId)), None)
    ensures e == LoadVariables ==>
      && r.view == v
      && (r.sent.Some? <==> |v.selected| > 0)
      && (r.sent.Some? ==> r.sent.value == GetColorVariables(v.selected))
    ensures e == CreateClick ==>
      && r.view == v
      && (r.sent.Some? <==> |v.colorVariables| > 0)
      && (r.sent.Some? ==> r.sent.value == CreateComponents(v.colorVariables))
    ensures e == RescanClick ==>
      && r.view.selected == [] && !r.view.showResults && !r.view.showCollectionSelection
      && r.view.collections == v.collections && r.view.colorVariables == v.colorVariables
      && r.sent == Some(GetCollections)
    ensures e.ReceivedCollections? ==>
      && r.view.showCollectionSelection && r.view.collections == e.summaries
      && r.view.selected == v.selected && r.view.showResults == v.showResults
      && r.view.colorVariables == v.colorVariables && r.sent == None
    ensures e.ReceivedColorVariables? ==>
      && r.view.showResults && !r.view.showCollectionSelection && r.view.colorVariables == e.variables
      && r.view.selected == v.selected && r.view.collections == v.collections && r.sent == None
    ensures r.sent.Some? && r.sent.value.GetColorVariables? ==> r.sent.value.collectionIds == v.selected
  {
    match e
    case ScanClick => Reaction(v, Some(GetCollections))
    case CollectionToggle(id) => Reaction(v.(selected := Toggle(v.selected, id)), None)
    case LoadVariables =>
      Reaction(v, if |v.selected| > 0 then Some(GetColorVariables(v.selected)) else None)
    case RescanClick =>
      Reaction(v.(showResults := false, showCollectionSelection := false, selected := []), Some(GetCollections))
    case CreateClick =>
      Reaction(v, if |v.colorVariables| > 0 then Some(CreateComponents(v.colorVariables)) else None)
    case CancelClick => Reaction(v, Some(Cancel))
    case ReceivedCollections(data) =>
      Reaction(v.(collections := data, showCollectionSelection := true), None)
    case ReceivedColorVariables(data) =>
      Reaction(v.(colorVariables := data, showResults := true, showCollectionSelection := false), None)
  }

  /** The state after a whole sequence of events, and every message sent on the way. */
  function Run(v: View, events: seq<Event>): (r: (View, seq<Message>))
    ensures |r.1| <= |events|
  {
    if |events| == 0 then (v, [])
    else
      var before := Run(v, events[..|events| - 1]);
      var step := Step(before.0, events[|events| - 1]);
      (step.view, before.1 + (if step.sent.Some? then [step.sent.value] else []))
  }

  /** Whatever the user does, the selection never holds an id twice. */
  lemma {:induction false} SelectionStaysDuplicateFree(v: View, events: seq<Event>)
    requires NoDuplicates(v.selected)
    ensures NoDuplicates(Run(v, events).0.selected)
    decreases |events|
  {
    if |events| > 0 {
      var before := Run(v, events[..|events| - 1]);
      SelectionStaysDuplicateFree(v, events[..|events| - 1]);
      if events[|events| - 1].CollectionToggle? {
        ToggleKeepsNoDuplicates(before.0.selected, events[|events| - 1].collectionId);
      }
    }
  }

  /** Every load request sent from the initial panel names a non-empty, duplicate-free selection. */
  lemma {:induction false} LoadRequestsAreWellFormed(events: seq<Event>)
    ensures forall m :: m in Run(Initial, events).1 && m.GetColorVariables? ==>
      |m.collectionIds| > 0 && NoDuplicates(m.collectionIds)
    decreases |events|
  {
    if |events| > 0 {
      var init := events[..|events| - 1];
      LoadRequestsAreWellFormed(init);
      SelectionStaysDuplicateFree(Initial, init);
    }
  }
}

=== FILE: scan.dfy ===
/**
 The selection scan of the plugin's host side: walk the selected nodes in
 pre-order, and for every visible solid fill record its colour once per
 distinct hex spelling, named after the node or, for an unnamed node,
 `Color k` with `k` one more than the number of colours recorded so far.
 */
module SelectionScan {
  import opened Common
  import opened Types
  import opened ColorUtils

  const SolidType: string := "SOLID"
  const EmptySelectionNotice: string := "Please select objects to scan for color variants"

  /**
   One paint of a node. `visible` is `None` when the paint has no
   `visible` field; `color` is only read for solid paints.
   */
  datatype Fill = Fill(paintType: string, visible: Option<bool>, color: RGB)

  /**
   A scene node: its name, its fills (empty when the node has none or
   they are not a plain array), its children (empty when it has none).
   */
  datatype Node = Node(name: string, fills: seq<Fill>, children: seq<Node>)

  /** One colour the scan found. */
  datatype ColorVariant = ColorVariant(name: string, color: RGB, hex: string)

  /** The scan's accumulators: the list built so far and the hex strings already seen. */
  datatype ScanState = ScanState(variants: seq<ColorVariant>, processed: set<string>)

  /** A fill met during the walk, the name of the node carrying it, and the fill's hex spelling. */
  datatype Sample = Sample(nodeName: string, fill: Fill, hex: string)

  const Start: ScanState := ScanState([], {})

  /** A fill counts when it is solid and not explicitly hidden; a fill with no visibility flag counts. */
  predicate Contributes(f: Fill)
    ensures f.paintType != SolidType || f.visible == Some(false) ==> !Contributes(f)
    ensures f.paintType == SolidType && f.visible == None ==> Contributes(f)
  {
    f.paintType == SolidType && f.visible != Some(false)
  }

  /** The sample taken from fill `f` of a node named `name`; the hex is computed once, here. */
  function SampleOf(name: string, f: Fill): Sample {
    Sample(name, f, RgbToHex(f.color))
  }

  /** The sample's hex is the spelling of its fill's colour. */
  predicate Faithful(s: Sample) {
    s.hex == RgbToHex(s.fill.color)
  }

  /** `name` is `Color ` followed by the base-ten spelling of `k`. */
  predicate NamedAfterNumber(name: string, k: nat) {
    |name| > 6 && name[..6] == "Color " && SpellsDecimal(name[6..], k)
  }

  /** The name given to the `k`-th recorded colour when its node has no name. */
  function FallbackName(k: nat): (r: string)
    ensures |r| > 6 && r[..6] == "Color "
  {
    "Color " + DecimalDigits(k)
  }

  /** A generated name is `Color ` followed by the base-ten spelling of `k`. */
  lemma FallbackNameSpelling(k: nat)
    ensures NamedAfterNumber(FallbackName(k), k)
  {
    DecimalDigitsSpelling(k);
    assert FallbackName(k)[6..] == DecimalDigits(k);
  }

  /** The entry recorded for `s` when it becomes the `k`-th colour: named after its node, else `Color k`. */
  function Entry(s: Sample, k: nat): (v: ColorVariant)
    ensures v.hex == s.hex && v.color == s.fill.color
    ensures s.nodeName != "" ==> v.name == s.nodeName
    ensures s.nodeName == "" ==> v.name == FallbackName(k)
  {
    ColorVariant(if s.nodeName != "" then s.nodeName else FallbackName(k), s.fill.color, s.hex)
  }

  // ---------------------------------------------------------------------------
  // The walk as the plugin performs it

  /** The body of the fills loop for one fill. */
  function Step(st: ScanState, s: Sample): (r: ScanState)
    ensures st.variants <= r.variants && |r.variants| <= |st.variants| + 1
    ensures st.processed <= r.processed
  {
    if Contributes(s.fill) && s.hex !in st.processed then
      ScanState(st.variants + [Entry(s, |st.variants| + 1)], st.processed + {s.hex})
    else st
  }

  /** The loop over one node's fills, in order. */
  function ProcessFills(st: ScanState, name: string, fills: seq<Fill>): (r: ScanState)
    ensures st.variants <= r.variants && st.processed <= r.processed
    decreases |fills|
  {
    if |fills| == 0 then st
    else ProcessFills(Step(st, SampleOf(name, fills[0])), name, fills[1..])
  }

  /** `processNode`: the node's own fills, then each child in order. */
  function ProcessNode(st: ScanState, node: Node): (r: ScanState)
    ensures st.variants <= r.variants && st.processed <= r.processed
    decreases node, 1
  {
    ProcessNodes(ProcessFills(st, node.name, node.fills), node.children)
  }

  /** The loop over a list of nodes (the children, or the selection). */
  function ProcessNodes(st: ScanState, nodes: seq<Node>): (r: ScanState)
    ensures st.variants <= r.variants && st.processed <= r.processed
    decreases nodes, 0
  {
    if |nodes| == 0 then st
    else ProcessNodes(ProcessNode(st, nodes[0]), nodes[1..])
  }

  /** `scanColorVariants` on the current selection: the colours found and the notice, if any. */
  function ScanColorVariants(selection: seq<Node>): (r: (seq<ColorVariant>, Option<string>))
    ensures |selection| == 0 ==> r == ([], Some(EmptySelectionNotice))
    ensures |selection| > 0 ==> r.1 == None
  {
    (ProcessNodes(Start, selection).variants,
     if |selection| == 0 then Some(EmptySelectionNotice) else None)
  }

  // ---------------------------------------------------------------------------
  // The same walk as a fold over the pre-order list of fills

  function FillSamples(name: string, fills: seq<Fill>): (r: seq<Sample>)
    ensures |r| == |fills|
    ensures forall i :: 0 <= i < |fills| ==> r[i] == SampleOf(name, fills[i])
  {
    if |fills| == 0 then [] else [SampleOf(name, fills[0])] + FillSamples(name, fills[1..])
  }

  /** A node's fills, then its children's, in pre-order. */
  function Preorder(node: Node): seq<Sample>
    decreases node, 1
  {
    FillSamples(node.name, node.fills) + PreorderAll(node.children)
  }

  function PreorderAll(nodes: seq<Node>): seq<Sample>
    decreases nodes, 0
  {
    if |nodes| == 0 then [] else Preorder(nodes[0]) + PreorderAll(nodes[1..])
  }

  /** `Step` applied to each sample in turn. */
  function Run(st: ScanState, samples: seq<Sample>): (r: ScanState)
    ensures st.variants <= r.variants
    ensures |r.variants| <= |st.variants| + |samples|
  {
    if |samples| == 0 then st
    else Step(Run(st, samples[..|samples| - 1]), samples[|samples| - 1])
  }

  /** Running over `a + b` is running over `a`, then over `b`. */
  lemma {:induction false} RunAppend(st: ScanState, a: seq<Sample>, b: seq<Sample>)
    ensures Run(st, a + b) == Run(Run(st, a), b)
    decreases |b|
  {
    if |b| == 0 {
      assert a + b == a;
    } else {
      var ab := a + b;
      assert ab[..|ab| - 1] == a + b[..|b| - 1];
      assert ab[|ab| - 1] == b[|b| - 1];
      RunAppend(st, a, b[..|b| - 1]);
    }
  }

  lemma RunCons(st: ScanState, s: Sample, rest: seq<Sample>)
    ensures Run(st, [s] + rest) == Run(Step(st, s), rest)
  {
    RunAppend(st, [s], rest);
    assert [s][..0] == [];
  }

  lemma {:induction false} ProcessFillsIsRun(st: ScanState, name: string, fills: seq<Fill>)
    ensures ProcessFills(st, name, fills) == Run(st, FillSamples(name, fills))
    decreases |fills|
  {
    if |fills| > 0 {
      ProcessFillsIsRun(Step(st, SampleOf(name, fills[0])), name, fills[1..]);
      RunCons(st, SampleOf(name, fills[0]), FillSamples(name, fills[1..]));
    }
  }

  /** The recursive walk visits fills exactly in pre-order. */
  lemma {:induction false} ProcessNodeIsRun(st: ScanState, node: Node)
    ensures ProcessNode(st, node) == Run(st, Preorder(node))
    decreases node, 1
  {
    ProcessFillsIsRun(st, node.name, node.fills);
    var mid := ProcessFills(st, node.name, node.fills);
    ProcessNodesIsRun(mid, node.children);
    RunAppend(st, FillSamples(node.name, node.fills), PreorderAll(node.children));
  }

  lemma {:induction false} ProcessNodesIsRun(st: ScanState, nodes: seq<Node>)
    ensures ProcessNodes(st, nodes) == Run(st, PreorderAll(nodes))
    decreases nodes, 0
  {
    if |nodes| > 0 {
      ProcessNodeIsRun(st, nodes[0]);
      ProcessNodesIsRun(ProcessNode(st, nodes[0]), nodes[1..]);
      RunAppend(st, Preorder(nodes[0]), PreorderAll(nodes[1..]));
    }
  }

  // ---------------------------------------------------------------------------
  // What the scan records, stated without the seen-set

  /** Sample `i` is the first contributing sample with its hex spelling. */
  predicate IsFirst(samples: seq<Sample>, i: int)
    requires 0 <= i < |samples|
  {
    && Contributes(samples[i].fill)
    && forall j :: 0 <= j < i && Contributes(samples[j].fill) ==> samples[j].hex != samples[i].hex
  }

  /** The hex spellings of all contributing samples. */
  function SeenHexes(samples: seq<Sample>): set<string> {
    set i | 0 <= i < |samples| && Contributes(samples[i].fill) :: samples[i].hex
  }

  /** The list the scan should produce: one entry per first occurrence, numbered by position. */
  function Expected(samples: seq<Sample>): (r: seq<ColorVariant>)
    ensures |r| <= |samples|
  {
    if |samples| == 0 then []
    else
      var n := |samples|;
      var prev := Expected(samples[..n - 1]);
      prev + (if IsFirst(samples, n - 1) then [Entry(samples[n - 1], |prev| + 1)] else [])
  }

  lemma IsFirstOfPrefix(samples: seq<Sample>, m: nat, i: nat)
    requires i < m <= |samples|
    ensures IsFirst(samples[..m], i) <==> IsFirst(samples, i)
  {
    assert forall j :: 0 <= j <= i ==> samples[..m][j] == samples[j];
  }

  lemma SeenHexesSnoc(samples: seq<Sample>)
    requires |samples| > 0
    ensures var n := |samples|;
      SeenHexes(samples) == SeenHexes(samples[..n - 1])
        + (if Contributes(samples[n - 1].fill) then {samples[n - 1].hex} else {})
  {
    var n := |samples|;
    assert forall j :: 0 <= j < n - 1 ==> samples[..n - 1][j] == samples[j];
  }

  /** A contributing sample is a first occurrence exactly when its hex has not been seen before it. */
  lemma FirstIffUnseen(samples: seq<Sample>)
    requires |samples| > 0
    ensures var n := |samples|;
      IsFirst(samples, n - 1) <==>
        Contributes(samples[n - 1].fill) && samples[n - 1].hex !in SeenHexes(samples[..n - 1])
  {
    var n := |samples|;
    var init := samples[..n - 1];
    if Contributes(samples[n - 1].fill) && samples[n - 1].hex in SeenHexes(init) {
      var j :| 0 <= j < n - 1 && Contributes(init[j].fill) && init[j].hex == samples[n - 1].hex;
      assert samples[j] == init[j];
    }
    if Contributes(samples[n - 1].fill) && !IsFirst(samples, n - 1) {
      var j :| 0 <= j < n - 1 && Contributes(samples[j].fill) && samples[j].hex == samples[n - 1].hex;
      assert init[j] == samples[j];
    }
  }

  /**
   Running from the empty state records exactly the first occurrences, in
   order, and the seen-set is the set of every contributing hex.
   */
  lemma {:induction false} RunIsExpected(samples: seq<Sample>)
    ensures Run(Start, samples) == ScanState(Expected(samples), SeenHexes(samples))
    decreases |samples|
  {
    if |samples| == 0 {
      assert SeenHexes(samples) == {};
    } else {
      var n := |samples|;
      RunIsExpected(samples[..n - 1]);
      SeenHexesSnoc(samples);
      FirstIffUnseen(samples);
    }
  }

  /** The scan of a selection is the expected list of its pre-order fills. */
  lemma ScanIsExpected(selection: seq<Node>)
    ensures ScanColorVariants(selection).0 == Expected(PreorderAll(selection))
  {
    ProcessNodesIsRun(Start, selection);
    RunIsExpected(PreorderAll(selection));
  }

  // ---------------------------------------------------------------------------
  // Properties of the expected list

  /** One sample more keeps every earlier entry where it was. */
  lemma ExpectedKeeps(samples: seq<Sample>, k: nat)
    requires |samples| > 0 && k < |Expected(samples[..|samples| - 1])|
    ensures k < |Expected(samples)| && Expected(samples)[k] == Expected(samples[..|samples| - 1])[k]
  {
  }

  /** A first occurrence at the end adds one entry, numbered after the earlier ones. */
  lemma ExpectedAppends(samples: seq<Sample>)
    requires |samples| > 0 && IsFirst(samples, |samples| - 1)
    ensures var prev := Expected(samples[..|samples| - 1]);
      |Expected(samples)| == |prev| + 1 && Expected(samples)[|prev|] == Entry(samples[|samples| - 1], |prev| + 1)
  {
  }

  /**
   Entry `k` is recorded from first occurrence `i`: it carries that fill's
   colour and hex and its node's name, or `Color k+1` when the node is unnamed.
   */
  lemma {:induction false} ExpectedEntriesAreFirsts(samples: seq<Sample>, k: nat) returns (i: nat)
    requires k < |Expected(samples)|
    ensures i < |samples| && IsFirst(samples, i)
    ensures Expected(samples)[k] == Entry(samples[i], k + 1)
    ensures Expected(samples)[k].hex == samples[i].hex && Expected(samples)[k].color == samples[i].fill.color
    ensures samples[i].nodeName != "" ==> Expected(samples)[k].name == samples[i].nodeName
    ensures samples[i].nodeName == "" ==> Expected(samples)[k].name == FallbackName(k + 1)
    decreases |samples|
  {
    var n := |samples|;
    var init := samples[..n - 1];
    if k < |Expected(init)| {
      i := ExpectedEntriesAreFirsts(init, k);
      ExpectedKeeps(samples, k);
      IsFirstOfPrefix(samples, n - 1, i);
      assert samples[i] == init[i];
    } else {
      if IsFirst(samples, n - 1) {
        ExpectedAppends(samples);
      }
      i := n - 1;
    }
  }

  /** Every first occurrence `i` is recorded, as entry `k`. */
  lemma {:induction false} FirstsAreRecorded(samples: seq<Sample>, i: nat) returns (k: nat)
    requires i < |samples| && IsFirst(samples, i)
    ensures k < |Expected(samples)| && Expected(samples)[k] == Entry(samples[i], k + 1)
    decreases |samples|
  {
    var n := |samples|;
    var init := samples[..n - 1];
    if i < n - 1 {
      IsFirstOfPrefix(samples, n - 1, i);
      k := FirstsAreRecorded(init, i);
      ExpectedKeeps(samples, k);
      assert init[i] == samples[i];
    } else {
      k := |Expected(init)|;
      ExpectedAppends(samples);
    }
  }

  /** The scan's invariant: recorded hexes are distinct and are exactly the seen-set. */
  predicate Consistent(st: ScanState) {
    && (forall k, l :: 0 <= k < l < |st.variants| ==> st.variants[k].hex != st.variants[l].hex)
    && st.processed == set k | 0 <= k < |st.variants| :: st.variants[k].hex
  }

  lemma StepKeepsConsistent(st: ScanState, s: Sample)
    requires Consistent(st)
    ensures Consistent(Step(st, s))
  {
    var r := Step(st, s);
    if r != st {
      var n := |st.variants|;
      assert forall k :: 0 <= k < n ==> r.variants[k] == st.variants[k];
      assert r.variants[n].hex == s.hex;
      assert (set k | 0 <= k < |r.variants| :: r.variants[k].hex)
        == (set k | 0 <= k < n :: st.variants[k].hex) + {s.hex};
    }
  }

  lemma {:induction false} RunKeepsConsistent(st: ScanState, samples: seq<Sample>)
    requires Consistent(st)
    ensures Consistent(Run(st, samples))
    decreases |samples|
  {
    if |samples| > 0 {
      RunKeepsConsistent(st, samples[..|samples| - 1]);
      StepKeepsConsistent(Run(st, samples[..|samples| - 1]), samples[|samples| - 1]);
    }
  }

  /** No hex spelling is recorded twice, and the recorded hexes are those of all visible solid fills. */
  lemma ExpectedHexesDistinct(samples: seq<Sample>)
    ensures forall k, l :: 0 <= k < l < |Expected(samples)| ==> Expected(samples)[k].hex != Expected(samples)[l].hex
    ensures (set k | 0 <= k < |Expected(samples)| :: Expected(samples)[k].hex) == SeenHexes(samples)
  {
    RunIsExpected(samples);
    RunKeepsConsistent(Start, samples);
  }

  /** The number of contributing samples. */
  function ContributingCount(samples: seq<Sample>): (c: nat)
    ensures c <= |samples|
  {
    if |samples| == 0 then 0
    else ContributingCount(samples[..|samples| - 1]) + (if Contributes(samples[|samples| - 1].fill) then 1 else 0)
  }

  /** The scan never records more colours than there are visible solid fills. */
  lemma {:induction false} ExpectedWithinContributing(samples: seq<Sample>)
    ensures |Expected(samples)| <= ContributingCount(samples)
    decreases |samples|
  {
    if |samples| > 0 {
      ExpectedWithinContributing(samples[..|samples| - 1]);
    }
  }

  /** Scanning more fills only appends: the earlier result is a prefix of the later one. */
  lemma ExpectedGrowsByAppending(a: seq<Sample>, b: seq<Sample>)
    ensures Expected(a) <= Expected(a + b)
  {
    RunIsExpected(a);
    RunIsExpected(a + b);
    RunAppend(Start, a, b);
  }

  predicate AllFaithful(samples: seq<Sample>) {
    forall i :: 0 <= i < |samples| ==> Faithful(samples[i])
  }

  /** Every sample the walk takes carries its own fill's hex. */
  lemma {:induction false} PreorderFaithful(node: Node)
    ensures AllFaithful(Preorder(node))
    decreases node, 1
  {
    var own, rest := FillSamples(node.name, node.fills), PreorderAll(node.children);
    PreorderAllFaithful(node.children);
    assert AllFaithful(own);
    AllFaithfulAppend(own, rest);
  }

  lemma {:induction false} PreorderAllFaithful(nodes: seq<Node>)
    ensures AllFaithful(PreorderAll(nodes))
    decreases nodes, 0
  {
    if |nodes| > 0 {
      var first, rest := Preorder(nodes[0]), PreorderAll(nodes[1..]);
      PreorderFaithful(nodes[0]);
      PreorderAllFaithful(nodes[1..]);
      AllFaithfulAppend(first, rest);
    }
  }

  lemma AllFaithfulAppend(a: seq<Sample>, b: seq<Sample>)
    requires AllFaithful(a) && AllFaithful(b)
    ensures AllFaithful(a + b)
  {
    forall i | 0 <= i < |a + b|
      ensures Faithful((a + b)[i])
    {
      if i < |a| {
        assert (a + b)[i] == a[i];
      } else {
        assert (a + b)[i] == b[i - |a|];
      }
    }
  }

  /** Every colour the scan reports carries the hex spelling of its own colour, and no spelling twice. */
  lemma ScanEntriesCarryTheirHex(selection: seq<Node>)
    ensures var out := ScanColorVariants(selection).0;
      && (forall k :: 0 <= k < |out| ==> out[k].hex == RgbToHex(out[k].color))
      && (forall k, l :: 0 <= k < l < |out| ==> out[k].hex != out[l].hex)
  {
    var samples := PreorderAll(selection);
    ScanIsExpected(selection);
    PreorderAllFaithful(selection);
    ExpectedHexesDistinct(samples);
    var out := Expected(samples);
    forall k | 0 <= k < |out|
      ensures out[k].hex == RgbToHex(out[k].color)
    {
      var i := ExpectedEntriesAreFirsts(samples, k);
      assert Faithful(samples[i]);
    }
  }

  /** The scan reports at most as many colours as the selection has visible solid fills. */
  lemma ScanWithinVisibleSolidFills(selection: seq<Node>)
    ensures |ScanColorVariants(selection).0| <= ContributingCount(PreorderAll(selection))
  {
    ScanIsExpected(selection);
    ExpectedWithinContributing(PreorderAll(selection));
  }
}

=== FILE: types.dfy ===
/**
 The records the plugin passes between the host side and the panel,
 mirroring the interfaces of the shared type declarations, plus the
 host's variable and collection records as the plugin reads them.
 */
module Types {

  /** Normalised colour; the host promises nothing about the range of the components. */
  datatype RGB = RGB(r: real, g: real, b: real)

  /** A resolved colour variable as handed to the panel and to swatch creation. */
  datatype ColorVariable = ColorVariable(id: string, name: string, color: RGB, hex: string)

  /** What the panel lists for one collection: its identity and how many colours it holds. */
  datatype CollectionSummary = CollectionSummary(id: string, name: string, colorCount: nat)

  /**
   One raw value of a variable in one mode. `Direct` is any object carrying
   `r`, `g` and `b`; `Alias` is `{type: 'VARIABLE_ALIAS', id}`; `Other` is
   everything else (numbers, strings, booleans, `undefined`, other objects).
   */
  datatype ModeValue = Direct(color: RGB) | Alias(targetId: string) | Other

  /** A host variable. `valuesByMode` lists its modes in `Object.keys` order. */
  datatype Variable = Variable(
    id: string,
    name: string,
    resolvedType: string,
    valuesByMode: seq<(string, ModeValue)>)

  datatype Mode = Mode(modeId: string, name: string)

  /** A host variable collection: its modes and its member variables, in order. */
  datatype Collection = Collection(id: string, name: string, modes: seq<Mode>, variableIds: seq<string>)
}

=== FILE: variable_service.dfy ===
/**
 Reading colour variables out of the host's variable store: the bounded
 alias resolver and the three enumerations built on it. The store is a
 map from variable id to variable (the host's `getVariableByIdAsync`),
 and the host's collection list is a sequence in the host's order.
 */
module VariableService {
  import opened Common
  import opened Types
  import opened ColorUtils

  /** The host's resolved-type tag for colour variables. */
  const ColorType: string := "COLOR"

  /** Resolution gives up once the depth exceeds this bound. */
  const MaxDepth: nat := 10

  type Store = map<string, Variable>

  /** `valuesByMode[Object.keys(valuesByMode)[0]]`; a variable with no modes yields `undefined`. */
  function FirstModeValue(v: Variable): (r: ModeValue)
    ensures |v.valuesByMode| == 0 ==> r.Other?
    ensures |v.valuesByMode| > 0 ==> r == v.valuesByMode[0].1
  {
    if |v.valuesByMode| == 0 then Other else v.valuesByMode[0].1
  }

  /** A variable the resolver may follow an alias into: present in the store and typed COLOR. */
  predicate IsColorVariable(store: Store, id: string) {
    id in store && store[id].resolvedType == ColorType
  }

  /**
   One alias hop: an alias with a non-empty target id that names a COLOR
   variable leads to that variable's first-mode value. Nothing else hops.
   */
  function Hop(store: Store, value: ModeValue): (next: Option<ModeValue>)
    ensures next.Some? ==> value.Alias? && IsColorVariable(store, value.targetId)
  {
    match value
    case Alias(id) =>
      if id != "" && IsColorVariable(store, id) then Some(FirstModeValue(store[id])) else None
    case _ => None
  }

  /**
   `resolveColorValue(value, depth)`: `None` once `depth` exceeds the bound;
   a direct colour is returned as is; an alias is followed one hop deeper.
   */
  function ResolveColorValue(store: Store, value: ModeValue, depth: nat): (r: Option<RGB>)
    ensures r.Some? ==> depth <= MaxDepth
    decreases if depth > MaxDepth then 0 else MaxDepth + 1 - depth
  {
    if depth > MaxDepth then None
    else if value.Direct? then Some(value.color)
    else match Hop(store, value)
      case None => None
      case Some(next) => ResolveColorValue(store, next, depth + 1)
  }

  /** Reference definition: the value reached after exactly `k` alias hops, if every hop succeeds. */
  function Follow(store: Store, value: ModeValue, k: nat): Option<ModeValue>
    decreases k
  {
    if k == 0 then Some(value)
    else match Hop(store, value)
      case None => None
      case Some(next) => Follow(store, next, k - 1)
  }

  /** `k` hops from `value` end at the direct colour `c`. */
  predicate ChainEndsIn(store: Store, value: ModeValue, k: nat, c: RGB) {
    Follow(store, value, k) == Some(Direct(c))
  }

  /** A direct colour resolves to itself at every depth up to the bound. */
  lemma ResolveDirect(store: Store, c: RGB, depth: nat)
    requires depth <= MaxDepth
    ensures ResolveColorValue(store, Direct(c), depth) == Some(c)
  {
  }

  /** An alias to an existing COLOR variable resolves as that variable's first-mode value one level deeper. */
  lemma ResolveAlias(store: Store, id: string, depth: nat)
    requires depth <= MaxDepth && id != "" && IsColorVariable(store, id)
    ensures ResolveColorValue(store, Alias(id), depth) == ResolveColorValue(store, FirstModeValue(store[id]), depth + 1)
  {
  }

  /** A missing target, a non-COLOR target, an empty alias id or a non-colour value yields no colour. */
  lemma ResolveFailures(store: Store, value: ModeValue, depth: nat)
    requires
      || value.Other?
      || (value.Alias? && (value.targetId == "" || !IsColorVariable(store, value.targetId)))
    ensures ResolveColorValue(store, value, depth) == None
  {
  }

  /** Hops compose: `a + b` hops are `a` hops followed by `b` more. */
  lemma {:induction false} FollowAdd(store: Store, value: ModeValue, a: nat, b: nat)
    ensures Follow(store, value, a + b) ==
      match Follow(store, value, a)
      case None => None
      case Some(mid) => Follow(store, mid, b)
    decreases a
  {
    if a > 0 {
      match Hop(store, value)
      case None =>
      case Some(next) => FollowAdd(store, next, a - 1, b);
    }
  }

  /**
   The resolver agrees with the hop chain: it yields `c` exactly when some
   chain of hops from `value` ends in the direct colour `c` without passing
   the depth bound.
   */
  lemma {:induction false} ResolveIsBoundedChain(store: Store, value: ModeValue, depth: nat, c: RGB)
    ensures ResolveColorValue(store, value, depth) == Some(c) <==>
      exists k: nat :: depth + k <= MaxDepth && ChainEndsIn(store, value, k, c)
    decreases if depth > MaxDepth then 0 else MaxDepth + 1 - depth
  {
    if depth <= MaxDepth {
      if value.Direct? {
        if value.color == c {
          assert ChainEndsIn(store, value, 0, c);
        }
        forall k: nat | ChainEndsIn(store, value, k, c)
          ensures value.color == c
        {
          if k > 0 {
            assert Hop(store, value) == None;
          }
        }
      } else if Hop(store, value).Some? {
        var next := Hop(store, value).value;
        ResolveIsBoundedChain(store, next, depth + 1, c);
        if ResolveColorValue(store, value, depth) == Some(c) {
          var k: nat :| depth + 1 + k <= MaxDepth && ChainEndsIn(store, next, k, c);
          assert ChainEndsIn(store, value, k + 1, c);
        }
        forall k: nat | depth + k <= MaxDepth && ChainEndsIn(store, value, k, c)
          ensures ResolveColorValue(store, value, depth) == Some(c)
        {
          assert k != 0;
          assert ChainEndsIn(store, next, k - 1, c);
        }
      } else {
        forall k: nat
          ensures !ChainEndsIn(store, value, k, c)
        {
        }
      }
    }
  }

  /** A chain of hops that ends in a direct colour has exactly one length and one colour. */
  lemma {:induction false} ChainEndIsUnique(store: Store, value: ModeValue, k1: nat, k2: nat, c1: RGB, c2: RGB)
    requires ChainEndsIn(store, value, k1, c1) && ChainEndsIn(store, value, k2, c2)
    ensures k1 == k2 && c1 == c2
    decreases k1
  {
    if k1 > 0 && k2 > 0 {
      var next := Hop(store, value).value;
      ChainEndIsUnique(store, next, k1 - 1, k2 - 1, c1, c2);
    } else if k1 != k2 {
      assert false;
    }
  }

  /** From depth 0, a chain of at most ten hops resolves, and a chain of eleven or more does not. */
  lemma ChainLengthBound(store: Store, value: ModeValue, k: nat, c: RGB)
    requires ChainEndsIn(store, value, k, c)
    ensures k <= MaxDepth ==> ResolveColorValue(store, value, 0) == Some(c)
    ensures k > MaxDepth ==> ResolveColorValue(store, value, 0) == None
  {
    ResolveIsBoundedChain(store, value, 0, c);
    if k > MaxDepth {
      if ResolveColorValue(store, value, 0).Some? {
        var d := ResolveColorValue(store, value, 0).value;
        ResolveIsBoundedChain(store, value, 0, d);
        var j: nat :| j <= MaxDepth && ChainEndsIn(store, value, j, d);
        ChainEndIsUnique(store, value, k, j, c, d);
      }
    }
  }

  /** A value that returns to itself after one or more hops never resolves: cycles cannot hang or succeed. */
  lemma CycleNeverResolves(store: Store, value: ModeValue, p: nat, depth: nat)
    requires p > 0 && Follow(store, value, p) == Some(value)
    ensures ResolveColorValue(store, value, depth) == None
  {
    if ResolveColorValue(store, value, depth).Some? {
      var c := ResolveColorValue(store, value, depth).value;
      ResolveIsBoundedChain(store, value, depth, c);
      var k: nat :| depth + k <= MaxDepth && ChainEndsIn(store, value, k, c);
      FollowAdd(store, value, p, k);
      FollowAdd(store, value, k, p);
      assert false;
    }
  }

  /** A COLOR variable whose first mode aliases itself resolves to nothing. */
  lemma SelfAliasNeverResolves(store: Store, id: string, depth: nat)
    requires id != "" && IsColorVariable(store, id) && FirstModeValue(store[id]) == Alias(id)
    ensures ResolveColorValue(store, Alias(id), depth) == None
  {
    assert Follow(store, Alias(id), 1) == Some(Alias(id));
    CycleNeverResolves(store, Alias(id), 1, depth);
  }

  /** A listed id `getColorVariablesInCollection` keeps: a COLOR variable whose first-mode value resolves from depth 0. */
  predicate Resolvable(store: Store, id: string) {
    IsColorVariable(store, id) && ResolveColorValue(store, FirstModeValue(store[id]), 0).Some?
  }

  /**
   The record `getColorVariablesInCollection` emits for one id: present
   exactly for a COLOR variable whose first-mode value resolves from depth 0.
   */
  function ColorVariableFor(store: Store, id: string): (r: Option<ColorVariable>)
    ensures r.Some? <==> Resolvable(store, id)
    ensures r.Some? ==>
      && r.value.id == store[id].id && r.value.name == store[id].name
      && ResolveColorValue(store, FirstModeValue(store[id]), 0) == Some(r.value.color)
      && r.value.hex == RgbToHex(r.value.color)
  {
    if IsColorVariable(store, id) then
      var v := store[id];
      match ResolveColorValue(store, FirstModeValue(v), 0)
      case Some(c) => Some(ColorVariable(v.id, v.name, c, RgbToHex(c)))
      case None => None
    else None
  }

  /** The lookup `getColorVariablesInCollection` performs for each listed id, in list order. */
  function Records(store: Store, variableIds: seq<string>): (r: seq<Option<ColorVariable>>)
    ensures |r| == |variableIds|
  {
    seq(|variableIds|, j requires 0 <= j < |variableIds| => ColorVariableFor(store, variableIds[j]))
  }

  /** `getColorVariablesInCollection`: one record per resolvable COLOR variable, in `variableIds` order. */
  function ColorVariablesInCollection(store: Store, variableIds: seq<string>): (r: seq<ColorVariable>)
    ensures |r| <= |variableIds|
  {
    Present(Records(store, variableIds))
  }

  /** Enumeration distributes over concatenation of the id list: order is kept, nothing is shared. */
  lemma ColorVariablesAppend(store: Store, a: seq<string>, b: seq<string>)
    ensures ColorVariablesInCollection(store, a + b) ==
      ColorVariablesInCollection(store, a) + ColorVariablesInCollection(store, b)
  {
    var ra, rb := Records(store, a), Records(store, b);
    forall j | 0 <= j < |a + b|
      ensures Records(store, a + b)[j] == (ra + rb)[j]
    {
      if j < |a| {
        assert (a + b)[j] == a[j];
      } else {
        assert (a + b)[j] == b[j - |a|];
      }
    }
    assert Records(store, a + b) == ra + rb;
    PresentAppend(ra, rb);
  }

  /** Every emitted record comes from some listed id, returned as `j`. */
  lemma ColorVariableSource(store: Store, variableIds: seq<string>, cv: ColorVariable) returns (j: nat)
    requires cv in ColorVariablesInCollection(store, variableIds)
    ensures j < |variableIds| && ColorVariableFor(store, variableIds[j]) == Some(cv)
  {
    j := PresentSource(Records(store, variableIds), cv);
  }

  /** The record of every listed, resolvable id is emitted. */
  lemma ColorVariableEmitted(store: Store, variableIds: seq<string>, j: nat)
    requires j < |variableIds| && ColorVariableFor(store, variableIds[j]).Some?
    ensures ColorVariableFor(store, variableIds[j]).value in ColorVariablesInCollection(store, variableIds)
  {
    PresentEmitted(Records(store, variableIds), j);
  }

  /**
   A record is emitted exactly when some listed id names a COLOR variable
   whose first-mode value resolves to it.
   */
  lemma ColorVariablesMembership(store: Store, variableIds: seq<string>, cv: ColorVariable)
    ensures cv in ColorVariablesInCollection(store, variableIds) <==>
      exists j :: 0 <= j < |variableIds| && ColorVariableFor(store, variableIds[j]) == Some(cv)
  {
    if cv in ColorVariablesInCollection(store, variableIds) {
      var j := ColorVariableSource(store, variableIds, cv);
    }
    if exists j :: 0 <= j < |variableIds| && ColorVariableFor(store, variableIds[j]) == Some(cv) {
      var j :| 0 <= j < |variableIds| && ColorVariableFor(store, variableIds[j]) == Some(cv);
      ColorVariableEmitted(store, variableIds, j);
    }
  }

  /** Every record of a collection carries the hex spelling of its own colour. */
  lemma {:induction false} RecordsSpellTheirColour(store: Store, variableIds: seq<string>)
    ensures forall cv :: cv in ColorVariablesInCollection(store, variableIds) ==> cv.hex == RgbToHex(cv.color)
  {
    forall cv | cv in ColorVariablesInCollection(store, variableIds)
      ensures cv.hex == RgbToHex(cv.color)
    {
      var j := ColorVariableSource(store, variableIds, cv);
    }
  }

  /** Positions of the id list naming a resolvable COLOR variable. */
  function ResolvableIndices(store: Store, variableIds: seq<string>): set<int> {
    set j | 0 <= j < |variableIds| && Resolvable(store, variableIds[j])
  }

  /** The number of records is the number of resolvable COLOR variables; nothing else is counted. */
  lemma ColorCountIsResolvable(store: Store, variableIds: seq<string>)
    ensures |ColorVariablesInCollection(store, variableIds)| == |ResolvableIndices(store, variableIds)|
  {
    PresentCount(Records(store, variableIds));
    assert PresentPositions(Records(store, variableIds)) == ResolvableIndices(store, variableIds);
  }

  /** What one collection adds to `getColorVariables`: its records when selected, nothing otherwise. */
  function Contribution(store: Store, c: Collection, selectedIds: seq<string>): seq<ColorVariable> {
    if c.id in selectedIds then ColorVariablesInCollection(store, c.variableIds) else []
  }

  /**
   `getColorVariables`: the records of the selected collections, concatenated
   in the host's collection order; nothing when no listed collection is selected.
   */
  function ColorVariables(store: Store, collections: seq<Collection>, selectedIds: seq<string>): (r: seq<ColorVariable>)
    ensures |selectedIds| == 0 ==> r == []
  {
    if |collections| == 0 then []
    else
      ColorVariables(store, collections[..|collections| - 1], selectedIds)
        + Contribution(store, collections[|collections| - 1], selectedIds)
  }

  /** The ids of the selected collections, one collection's list after another in host order. */
  function SelectedVariableIds(collections: seq<Collection>, selectedIds: seq<string>): seq<string> {
    if |collections| == 0 then []
    else
      var c := collections[|collections| - 1];
      SelectedVariableIds(collections[..|collections| - 1], selectedIds)
        + (if c.id in selectedIds then c.variableIds else [])
  }

  /**
   What `getColorVariables` loads is one enumeration of the selected
   collections' ids taken in host order: each selected collection
   contributes its records exactly once, in its own id order.
   */
  lemma {:induction false} ColorVariablesOfSelectedIds(
    store: Store, collections: seq<Collection>, selectedIds: seq<string>)
    ensures ColorVariables(store, collections, selectedIds) ==
      ColorVariablesInCollection(store, SelectedVariableIds(collections, selectedIds))
    decreases |collections|
  {
    if |collections| == 0 {
      assert Records(store, []) == [];
    } else {
      var init, c := collections[..|collections| - 1], collections[|collections| - 1];
      var ids := if c.id in selectedIds then c.variableIds else [];
      ColorVariablesOfSelectedIds(store, init, selectedIds);
      ColorVariablesAppend(store, SelectedVariableIds(init, selectedIds), ids);
      assert Records(store, []) == [];
    }
  }

  /** The number of records loaded is the number of resolvable COLOR variables among the selected ids. */
  lemma ColorVariablesCount(store: Store, collections: seq<Collection>, selectedIds: seq<string>)
    ensures |ColorVariables(store, collections, selectedIds)| ==
      |ResolvableIndices(store, SelectedVariableIds(collections, selectedIds))|
  {
    ColorVariablesOfSelectedIds(store, collections, selectedIds);
    ColorCountIsResolvable(store, SelectedVariableIds(collections, selectedIds));
  }

  /** Only membership in the selection matters: its order and repetitions do not change the result. */
  lemma {:induction false} ColorVariablesIgnoreSelectionOrder(
    store: Store, collections: seq<Collection>, s1: seq<string>, s2: seq<string>)
    requires forall id :: id in s1 <==> id in s2
    ensures ColorVariables(store, collections, s1) == ColorVariables(store, collections, s2)
    decreases |collections|
  {
    if |collections| > 0 {
      ColorVariablesIgnoreSelectionOrder(store, collections[..|collections| - 1], s1, s2);
    }
  }

  /** Collections are visited in host order: the result for `a + b` is the result for `a`, then for `b`. */
  lemma {:induction false} ColorVariablesFollowHostOrder(
    store: Store, a: seq<Collection>, b: seq<Collection>, selectedIds: seq<string>)
    ensures ColorVariables(store, a + b, selectedIds) ==
      ColorVariables(store, a, selectedIds) + ColorVariables(store, b, selectedIds)
    decreases |b|
  {
    if |b| == 0 {
      assert a + b == a;
    } else {
      var b', ab := b[..|b| - 1], a + b;
      assert ab[..|ab| - 1] == a + b';
      assert ab[|ab| - 1] == b[|b| - 1];
      ColorVariablesFollowHostOrder(store, a, b', selectedIds);
      var front, middle := ColorVariables(store, a, selectedIds), ColorVariables(store, b', selectedIds);
      var c := Contribution(store, b[|b| - 1], selectedIds);
      calc {
        ColorVariables(store, ab, selectedIds);
        ColorVariables(store, a + b', selectedIds) + c;
        (front + middle) + c;
        { AppendAssociative(front, middle, c); }
        front + (middle + c);
      }
    }
  }

  /** A record is returned exactly when it comes from a selected collection. */
  lemma ColorVariablesFromSelected(
    store: Store, collections: seq<Collection>, selectedIds: seq<string>, cv: ColorVariable)
    ensures cv in ColorVariables(store, collections, selectedIds) <==>
      exists i :: 0 <= i < |collections| && collections[i].id in selectedIds
        && cv in ColorVariablesInCollection(store, collections[i].variableIds)
  {
    if cv in ColorVariables(store, collections, selectedIds) {
      var i := SelectedSource(store, collections, selectedIds, cv);
    }
    if exists i :: 0 <= i < |collections| && collections[i].id in selectedIds
        && cv in ColorVariablesInCollection(store, collections[i].variableIds) {
      var i :| 0 <= i < |collections| && collections[i].id in selectedIds
        && cv in ColorVariablesInCollection(store, collections[i].variableIds);
      SelectedEmitted(store, collections, selectedIds, i, cv);
    }
  }

  /** Every returned record comes from selected collection `i`. */
  lemma {:induction false} SelectedSource(
    store: Store, collections: seq<Collection>, selectedIds: seq<string>, cv: ColorVariable)
    returns (i: nat)
    requires cv in ColorVariables(store, collections, selectedIds)
    ensures i < |collections| && collections[i].id in selectedIds
    ensures cv in ColorVariablesInCollection(store, collections[i].variableIds)
    decreases |collections|
  {
    var n := |collections|;
    var init := collections[..n - 1];
    if cv in ColorVariables(store, init, selectedIds) {
      i := SelectedSource(store, init, selectedIds, cv);
      assert collections[i] == init[i];
    } else {
      i := n - 1;
    }
  }

  /** Every record of selected collection `i` is returned. */
  lemma {:induction false} SelectedEmitted(
    store: Store, collections: seq<Collection>, selectedIds: seq<string>, i: nat, cv: ColorVariable)
    requires i < |collections| && collections[i].id in selectedIds
    requires cv in ColorVariablesInCollection(store, collections[i].variableIds)
    ensures cv in ColorVariables(store, collections, selectedIds)
    decreases |collections|
  {
    var n := |collections|;
    var init := collections[..n - 1];
    var front := ColorVariables(store, init, selectedIds);
    var last := Contribution(store, collections[n - 1], selectedIds);
    if i < n - 1 {
      assert init[i] == collections[i];
      SelectedEmitted(store, init, selectedIds, i, cv);
      assert cv in front;
    } else {
      assert cv in last;
    }
    assert cv in front + last;
  }

  /** Collections that are not selected contribute nothing: with none of them selected, nothing is loaded. */
  lemma {:induction false} ColorVariablesNoneSelected(store: Store, collections: seq<Collection>, selectedIds: seq<string>)
    requires forall i :: 0 <= i < |collections| ==> collections[i].id !in selectedIds
    ensures ColorVariables(store, collections, selectedIds) == []
    decreases |collections|
  {
    if |collections| > 0 {
      ColorVariablesNoneSelected(store, collections[..|collections| - 1], selectedIds);
    }
  }

  /** Every record `getColorVariables` returns carries the hex spelling of its own colour. */
  lemma SelectedRecordsSpellTheirColour(store: Store, collections: seq<Collection>, selectedIds: seq<string>)
    ensures forall cv :: cv in ColorVariables(store, collections, selectedIds) ==> cv.hex == RgbToHex(cv.color)
  {
    forall cv | cv in ColorVariables(store, collections, selectedIds)
      ensures cv.hex == RgbToHex(cv.color)
    {
      var i := SelectedSource(store, collections, selectedIds, cv);
      RecordsSpellTheirColour(store, collections[i].variableIds);
    }
  }

  /** The summary `getCollections` builds for one collection before filtering. */
  function Summary(store: Store, c: Collection): (s: CollectionSummary)
    ensures s.id == c.id && s.name == c.name
    ensures s.colorCount <= |c.variableIds|
  {
    CollectionSummary(c.id, c.name, |ColorVariablesInCollection(store, c.variableIds)|)
  }

  /** A summary counts exactly the collection's resolvable COLOR variables. */
  lemma SummaryCountIsResolvable(store: Store, c: Collection)
    ensures Summary(store, c).colorCount == |ResolvableIndices(store, c.variableIds)|
  {
    ColorCountIsResolvable(store, c.variableIds);
  }

  /** `getCollections`: every collection's summary, in host order, dropping those with no colour. */
  function Collections(store: Store, collections: seq<Collection>): (r: seq<CollectionSummary>)
    ensures |r| <= |collections|
    ensures forall k :: 0 <= k < |r| ==> r[k].colorCount > 0
  {
    if |collections| == 0 then []
    else
      var prefix := Collections(store, collections[..|collections| - 1]);
      var s := Summary(store, collections[|collections| - 1]);
      if s.colorCount > 0 then prefix + [s] else prefix
  }

  /** Summaries follow host order: the list for `a + b` is the list for `a`, then for `b`. */
  lemma {:induction false} CollectionsAppend(store: Store, a: seq<Collection>, b: seq<Collection>)
    ensures Collections(store, a + b) == Collections(store, a) + Collections(store, b)
    decreases |b|
  {
    if |b| == 0 {
      assert a + b == a;
    } else {
      var b', ab := b[..|b| - 1], a + b;
      assert ab[..|ab| - 1] == a + b';
      assert ab[|ab| - 1] == b[|b| - 1];
      CollectionsAppend(store, a, b');
      var s := Summary(store, b[|b| - 1]);
      var last := if s.colorCount > 0 then [s] else [];
      assert Collections(store, b) == Collections(store, b') + last;
      AppendAssociative(Collections(store, a), Collections(store, b'), last);
    }
  }

  /** One collection is listed once, with its summary, when it holds a resolvable COLOR variable, and not at all otherwise. */
  lemma CollectionsOfOne(store: Store, c: Collection)
    ensures |ResolvableIndices(store, c.variableIds)| > 0 ==> Collections(store, [c]) == [Summary(store, c)]
    ensures |ResolvableIndices(store, c.variableIds)| == 0 ==> Collections(store, [c]) == []
  {
    SummaryCountIsResolvable(store, c);
    assert [c][..0] == [];
  }

  /**
   A summary is listed exactly when it is some collection's summary and that
   collection holds at least one resolvable COLOR variable.
   */
  lemma CollectionsKeepsNonEmpty(store: Store, collections: seq<Collection>, s: CollectionSummary)
    ensures s in Collections(store, collections) <==>
      exists i :: 0 <= i < |collections| && Summary(store, collections[i]) == s
        && |ResolvableIndices(store, collections[i].variableIds)| > 0
  {
    if s in Collections(store, collections) {
      var i := SummarySource(store, collections, s);
      ColorCountIsResolvable(store, collections[i].variableIds);
    }
    if exists i :: 0 <= i < |collections| && Summary(store, collections[i]) == s
        && |ResolvableIndices(store, collections[i].variableIds)| > 0 {
      var i :| 0 <= i < |collections| && Summary(store, collections[i]) == s
        && |ResolvableIndices(store, collections[i].variableIds)| > 0;
      ColorCountIsResolvable(store, collections[i].variableIds);
      SummaryEmitted(store, collections, i);
    }
  }

  /** Every listed summary is the summary of collection `i`. */
  lemma {:induction false} SummarySource(store: Store, collections: seq<Collection>, s: CollectionSummary)
    returns (i: nat)
    requires s in Collections(store, collections)
    ensures i < |collections| && Summary(store, collections[i]) == s && s.colorCount > 0
    decreases |collections|
  {
    var n := |collections|;
    var init := collections[..n - 1];
    if s in Collections(store, init) {
      i := SummarySource(store, init, s);
      assert collections[i] == init[i];
    } else {
      i := n - 1;
    }
  }

  /** The summary of every collection with a colour is listed. */
  lemma {:induction false} SummaryEmitted(store: Store, collections: seq<Collection>, i: nat)
    requires i < |collections| && Summary(store, collections[i]).colorCount > 0
    ensures Summary(store, collections[i]) in Collections(store, collections)
    decreases |collections|
  {
    var n := |collections|;
    var init := collections[..n - 1];
    var prefix := Collections(store, init);
    var last := Summary(store, collections[n - 1]);
    assert Collections(store, collections) == prefix + (if last.colorCount > 0 then [last] else []);
    if i < n - 1 {
      assert init[i] == collections[i];
      SummaryEmitted(store, init, i);
    }
  }

  /** The collection-count fixture: two colour variables and one number variable in one collection, and an empty one. */
  const ExampleStore: Store := map[
    "var1" := Variable("var1", "Primary", ColorType, [("mode1", Direct(RGB(1.0, 0.0, 0.0)))]),
    "var2" := Variable("var2", "Secondary", ColorType, [("mode1", Direct(RGB(0.0, 1.0, 0.0)))]),
    "var3" := Variable("var3", "Text", "FLOAT", [("mode1", Other)])]

  const ExampleCollections: seq<Collection> := [
    Collection("col1", "Colors", [], ["var1", "var2", "var3"]),
    Collection("col2", "Empty", [], [])]

  /** The two colour variables are counted, the number variable is not, and the empty collection is dropped. */
  lemma CollectionsExample()
    ensures Collections(ExampleStore, ExampleCollections) == [CollectionSummary("col1", "Colors", 2)]
  {
    var cs := ExampleCollections;
    ExampleColorCount();
    assert Summary(ExampleStore, cs[0]) == CollectionSummary("col1", "Colors", 2);
    assert Summary(ExampleStore, cs[1]).colorCount == 0;
    assert cs[..1][..0] == [];
    assert cs[..2][..1] == cs[..1];
  }

  /** The first fixture collection holds two resolvable colour variables. */
  lemma ExampleColorCount()
    ensures |ColorVariablesInCollection(ExampleStore, ["var1", "var2", "var3"])| == 2
  {
    var ids := ["var1", "var2", "var3"];
    ExampleResolvable();
    ColorCountIsResolvable(ExampleStore, ids);
    assert ResolvableIndices(ExampleStore, ids) == {0, 1};
  }

  /** In the fixture, the two COLOR variables resolve and the FLOAT one is not a colour. */
  lemma ExampleResolvable()
    ensures Resolvable(ExampleStore, "var1") && Resolvable(ExampleStore, "var2")
    ensures !Resolvable(ExampleStore, "var3")
  {
  }
}
